=== FILE: README.md ===
# Blog post core in Dafny

A model of the logic at the centre of a small blog: the post record with
its derived fields, the post controller's operations against a store of
posts and stored files, the upload rules, the naming of processed images,
the Obsidian sync tool's decisions, and the pure helpers of the frontend.

| module | file | models |
|---|---|---|
| `Wrappers` | `wrappers.dfy` | `Option` and `Result` |
| `Strings` | `strings.dfy` | JavaScript string built-ins: ASCII `toLowerCase`, `trim` with JavaScript's whitespace set, `split` on one character, `join`, decimal rendering and parsing |
| `Slug` | `slug.dfy` | the slug chain of the first pre-save hook |
| `PostModel` | `post.dfy` | the post record, its bounds, the two pre-save hooks |
| `Paths` | `paths.dfy` | Node's `path.parse`, `extname` and `join` for POSIX paths |
| `Upload` | `upload.dfy` | the upload middleware: allow-list, folder, file name, size limit, error handler |
| `ImageProcessor` | `image.dfy` | output naming and the original-deletion rule of `processImage`, `createThumbnail` naming |
| `Lifecycle` | `lifecycle.dfy` | `getPost`, `getPostBySlug`, `createPost`, `updatePost`, `deletePost` over a store |
| `Listing` | `listing.dfy` | `getPosts`: filter, order, page window and pagination figures |
| `Markdown` | `markdown.dfy` | the sync tool's `extractTitleFromContent` and `generateExcerpt` |
| `ObsidianSync` | `sync.dfy` | post data defaults, the create-or-update choice and the file-to-post map |
| `Helpers` | `helpers.dfy` | `truncateText`, `getFileUrl`, `createExcerpt` |
| `AudioPlayer` | `audio.dfy` | `formatTime` |
| `Editor` | `editor.dfy` | the editor page: loading a post, the tag field, the submission |

The store is a map from post id to post plus the set of stored file paths.
Every operation is a pure function returning its result, the store
afterwards and the paths the controller itself passed to `fs.unlink`, in
order. The image step deletes the raw upload on its own; that deletion
shows only in the stored files. The clock is a parameter read once per
operation, and generated ids and the random file-name suffix are
parameters too. Whether a deletion
fails is given as the set of paths whose deletion fails. The image
library's outcome is a parameter too: either it writes a file of some
size, or it throws.

Some behaviour of the code is easy to miss, and the model keeps it as
written:

- `updatePost` writes through `findByIdAndUpdate`, which runs no save hook.
  An update therefore changes neither the slug, `updatedAt` nor
  `publishedAt`. Publishing a draft through an update leaves it without a
  publication date (`Lifecycle.UpdatePublishLeavesNoDate`).
- `updatePost` deletes the old thumbnail before the new image is
  processed. When processing fails, the record keeps pointing at a file
  that is gone (`Lifecycle.UpdateImageFailureLeavesDanglingThumbnail`).
- A view is a read-modify-write followed by `save`, so it also refreshes
  `updatedAt`.
- The listing sorts on `publishedAt` only. The model breaks ties by
  ascending id, which is insertion order for ObjectIds, and puts posts
  without a date last.
- A `search` term is matched as a literal, case-insensitive substring.
- The editor page checks only that the title is non-empty. A title of
  spaces passes the page and is refused by the server, whose `trim`
  setter empties it (`Editor.BlankTitlePassesEditorOnly`).
- The editor joins the tags with `, ` and splits the field at every
  comma, so a stored tag holding a comma (possible through the sync tool's
  front matter) comes back as several tags when the post is saved from
  the page (`Editor.CommaTagSplits`). An empty stored tag is dropped.

A few more facts about the code that the model keeps:

- The MIME allow-list has 14 types, among them `image/jpg` and
  `audio/mp3` (upload.js lines 46-54).
- `trim` removes whitespace only, so the slug keeps a hyphen at its edge
  (`"Hi !"` gives `"hi-"`).
- The slug keeps `_`, because `\w` includes it.
- A delete answers with empty data, not with the deleted post.

## Model

| member | source | states |
|---|---|---|
| Strings.TrimIsSlice | backend/src/models/Post.js:87 | `trim` drops only whitespace: the result is a contiguous piece of the input and everything cut off either end is whitespace |
| Strings.TrimOfTrimmed | backend/src/models/Post.js:87 | trimming a string with no whitespace at either end leaves it unchanged |
| Strings.SplitJoin | frontend/src/pages/PostEditor.js:144 | for a non-empty list of parts, splitting at a separator the parts do not contain undoes joining with it |
| Strings.LowerIdempotent | backend/src/models/Post.js:83 | lower-casing twice is lower-casing once |
| Slug.RemoveDisallowedKeeps | backend/src/models/Post.js:84 | after removing characters outside `[\w\s-]`, every remaining character is allowed and comes from the input, and every allowed character of the input remains |
| Slug.RemoveDisallowedOfConcat | backend/src/models/Post.js:84 | removal of a concatenation is the concatenation of the removals, so the kept characters stay in order |
| Slug.SpacesToHyphensRemovesSpace | backend/src/models/Post.js:85 | after the whitespace step no whitespace is left, and every character is `-` or from the input |
| Slug.CollapseHyphensCollapses | backend/src/models/Post.js:86 | after the hyphen step no two hyphens are adjacent, and every character comes from the input |
| Slug.SlugifyIsSlug | backend/src/models/Post.js:82-87 | every slug holds only `a`-`z`, `0`-`9`, `_` and `-`, never two hyphens in a row, and no whitespace |
| Slug.SlugifyFixesSlugs | backend/src/models/Post.js:82-87 | a string of slug shape is its own slug |
| Slug.SlugifyIdempotent | backend/src/models/Post.js:82-87 | deriving the slug of a slug changes nothing |
| Slug.SlugifyDoubleSpace | backend/src/models/Post.js:85 | a run of two spaces becomes one hyphen: `"A  b"` gives `"a-b"` |
| Slug.SlugifyDoubleHyphen | backend/src/models/Post.js:86 | a run of hyphens becomes one: `"x--Y"` gives `"x-y"` |
| Slug.SlugifyKeepsEdgeHyphen | backend/src/models/Post.js:84-87 | a hyphen at the edge survives `trim`: `"Hi !"` gives `"hi-"` |
| Slug.SlugifyAllPunctuation | backend/src/models/Post.js:84 | a title of punctuation alone gives the empty slug |
| PostModel.ParseStatus | backend/src/models/Post.js:28-32 | the status enum accepts exactly `draft` and `published`, and the accepted value reads back as the same string |
| PostModel.RunSaveHooks | backend/src/models/Post.js:80-99 | the slug is recomputed exactly when the title was modified; `updatedAt` becomes now on every save; an existing `publishedAt` is kept; a date appears exactly when the status was modified to published, and it is now; nothing else changes |
| PostModel.PublishedAtNeverOverwritten | backend/src/models/Post.js:94-99 | across any sequence of saves an existing `publishedAt` is never replaced |
| PostModel.PublishedAtSetByFirstPublish | backend/src/models/Post.js:94-99 | a post without a date gains one across a sequence of saves exactly when some save moves its status to published |
| PostModel.RepublishKeepsFirstDate | backend/src/models/Post.js:94-99 | publish, unpublish, publish again keeps the first publication time |
| PostModel.SlugKeptWithoutTitleChange | backend/src/models/Post.js:80-88 | saves that do not touch the title keep title and slug, however many there are |
| Paths.LastIndexOf | backend/src/utils/imageProcessor.js:19 | the index found holds the character and no later index does; none is found exactly when the character is absent |
| Paths.Name | backend/src/utils/imageProcessor.js:19 | the base name is the stem followed by the extension, and the stem holds no separator |
| Paths.BaseOfJoin | backend/src/utils/imageProcessor.js:20 | joining a file name onto a directory gives a path whose base name is that file name |
| Paths.ExtnameOfSuffix | backend/src/middleware/upload.js:39 | `extname` of a stem followed by a one-dot extension is that extension |
| Upload.FileFilter | backend/src/middleware/upload.js:44-61 | a file is accepted exactly when its MIME type is on the allow-list; a refusal says "File type X is not supported" |
| Upload.AllowListSize | backend/src/middleware/upload.js:46-54 | the allow-list holds 14 distinct types |
| Upload.Destination | backend/src/middleware/upload.js:24-36 | the folder is one of the three media folders or bare `uploads/`, bare `uploads/` exactly when no media prefix matches, and `uploads/images/` exactly for `image/` types |
| Upload.AcceptedFilesLandInMediaFolders | backend/src/middleware/upload.js:27-52 | an accepted file goes to the folder of its media kind, never to bare `uploads/` |
| Upload.StoredFilenameKeepsExtension | backend/src/middleware/upload.js:37-40 | the stored name starts with the field name and a hyphen, and `extname` reads back the original name's extension |
| Upload.DefaultSizeLimit | backend/src/middleware/upload.js:67 | without a configured limit the byte limit is 52,428,800 |
| Upload.AcceptUpload | backend/src/middleware/upload.js:23-70 | an upload is stored exactly when its type is allowed and its size within the limit; a disallowed type and an oversized file give their errors; a stored file keeps its metadata and lies in its destination folder |
| Upload.HandleUploadError | backend/src/middleware/upload.js:73-92 | no error passes on; any error answers 400; the size error names the megabyte limit; any other error passes its own message |
| Upload.UploadErrorsReachClient | backend/src/middleware/upload.js:56-92 | end to end, an upload passes on exactly when it is accepted, and each refusal reaches the client as 400 with its message |
| ImageProcessor.ResolveOptions | backend/src/utils/imageProcessor.js:13-17 | missing options default to width 1200, quality 80, format jpeg; given ones are used |
| ImageProcessor.OptimizedPathDiffers | backend/src/utils/imageProcessor.js:19-20 | the output's base name is the stem, `-optimized.` and the format, so it never equals the input path |
| ImageProcessor.ProcessImage | backend/src/utils/imageProcessor.js:11-47 | a missing input fails and changes nothing; success reports the output path and the written size; when the paths differ, success removes the input and adds the output; a failure leaves the files as they were, or with the output added |
| ImageProcessor.ProcessImageReplacesOriginal | backend/src/utils/imageProcessor.js:29-42 | with the default options, an existing input, a written output and a successful deletion, the run succeeds, removes the raw upload, keeps the output and reports the output's size |
| ImageProcessor.DefaultRunSucceeds | backend/src/utils/imageProcessor.js:19-42 | with the default options a run succeeds exactly when the input exists, the library writes and the original's deletion succeeds |
| ImageProcessor.CreateThumbnail | backend/src/utils/imageProcessor.js:55-73 | the run succeeds exactly when the input exists and the library writes; success adds the thumbnail path and returns it; a failure changes nothing |
| ImageProcessor.ThumbnailKeepsOriginal | backend/src/utils/imageProcessor.js:57-68 | the thumbnail path differs from its input, so a successful run keeps both files |
| Lifecycle.Violations | backend/src/models/Post.js:4-32 | a field fails exactly when the schema refuses it: the trimmed title empty or over 200, empty content, an excerpt over 500, a status outside the enum, and a missing title or content only on create |
| Lifecycle.TrimAll | backend/src/models/Post.js:54-57 | every stored tag is the trimmed tag |
| Lifecycle.UnlinkAll | backend/src/controllers/postController.js:284-291 | the files left are the files minus exactly the paths whose deletion succeeds; a failure does not stop the rest |
| Lifecycle.MediaPaths | backend/src/controllers/postController.js:270-282 | the paths to delete are exactly the present media paths, at most three |
| Lifecycle.FindBySlug | backend/src/controllers/postController.js:62 | a post is found exactly when one has the slug, and the one found has it |
| Lifecycle.GetPost | backend/src/controllers/postController.js:86-105 | the stored post under the id, or not found; nothing changes |
| Lifecycle.ViewBySlug | backend/src/controllers/postController.js:60-83 | an unknown slug is not found and changes nothing; otherwise views rise by exactly one, `updatedAt` becomes now, the rest is kept and nothing is deleted |
| Lifecycle.PrepareThumbnail | backend/src/controllers/postController.js:116-126 | without a thumbnail nothing happens; otherwise the image step runs and its result becomes the reference, name and type from the upload, path and size from the output |
| Lifecycle.CreatePost | backend/src/controllers/postController.js:108-162 | the files are those the image step leaves; an image failure, then a rule violation, then a taken slug is the error, in that order, and a create with a good image and valid fields succeeds exactly when the slug is free; a created post has the new id, the user as author, 0 views, the trimmed title and its slug, content, excerpt, trimmed category and tags, the given or default status, `createdAt` and `updatedAt` now, a date exactly when published, the processed thumbnail and the uploaded media; a failure leaves the posts alone; the controller deletes nothing itself, and with a thumbnail the raw upload is replaced by the optimised output |
| Lifecycle.SavedNewDocument | backend/src/controllers/postController.js:153 | the document `create` saves carries the new id, the author, 0 views, the trimmed title and its slug, the content, the excerpt, the trimmed category and tags, the status, `createdAt` and `updatedAt` now, a date exactly when published and equal to now, the thumbnail given and the uploaded media |
| Lifecycle.ApplyUpdate | backend/src/controllers/postController.js:243-246 | a given title is stored trimmed, content and excerpt as given, status as parsed, category trimmed and each tag trimmed; the media slots take the given references; fields the body leaves out are kept, and so are id, author, views, slug and all dates |
| Lifecycle.ApplyUpdateKeepsValid | backend/src/controllers/postController.js:243-246 | an update whose fields pass the rules keeps a valid post valid |
| Lifecycle.Attempted | backend/src/controllers/postController.js:179-183 | a deletion is attempted exactly when a file is uploaded for a slot that has a path, and it is the old path |
| Lifecycle.UpdatePost | backend/src/controllers/postController.js:165-255 | an unknown id is not found and changes nothing; otherwise the old thumbnail is deleted before the image step, and an image failure stops there with that error and that one deletion; after a good image the old video and audio paths of uploaded slots are deleted, and the update succeeds exactly when the fields pass the rules, storing exactly `ApplyUpdate` of the old post with the processed thumbnail and uploaded media, or fails with the violations; a failure leaves the posts alone; success replaces exactly the one post |
| Lifecycle.DeletePost | backend/src/controllers/postController.js:258-302 | an unknown id is not found and changes nothing; otherwise deletion is attempted for exactly the present media paths in order, the record goes, only the failing deletions leave files behind, and the answer is empty data |
| Lifecycle.CreatePreservesValid | backend/src/controllers/postController.js:153 | a create keeps every post valid and all slugs distinct |
| Lifecycle.UpdatePreservesValid | backend/src/controllers/postController.js:243-246 | an update keeps every post valid and all slugs distinct |
| Lifecycle.ReplaceKeepsValid | backend/src/controllers/postController.js:243-246 | replacing a post by a valid one with the same id and slug keeps the store valid |
| Lifecycle.ViewPreservesValid | backend/src/controllers/postController.js:72-74 | a view keeps the store valid |
| Lifecycle.DeletePreservesValid | backend/src/controllers/postController.js:293 | a delete keeps the store valid |
| Lifecycle.CreateThumbnailMetadata | backend/src/controllers/postController.js:116-150 | the created thumbnail takes name and type from the upload, path and size from the optimised output; the raw upload is gone and the output stored |
| Lifecycle.UpdateSkipsSaveHooks | backend/src/controllers/postController.js:243-246 | an update keeps id, author, views, slug, `updatedAt`, `publishedAt` and `createdAt`, even when title or status change; a given title is stored trimmed, a given status as given |
| Lifecycle.UpdatePublishLeavesNoDate | backend/src/controllers/postController.js:243-246 | publishing a draft by update succeeds with status published and still no publication date, deleting nothing |
| Lifecycle.UpdateReplacesUploadedSlots | backend/src/controllers/postController.js:177-240 | the deletions attempted are the old paths of the uploaded slots in the order thumbnail, video, audio; uploaded slots take the new reference; the others keep theirs |
| Lifecycle.UpdateWithoutUploadsKeepsFiles | backend/src/controllers/postController.js:177-241 | an update without uploads deletes nothing and leaves the files as they were |
| Lifecycle.UpdateImageFailureLeavesDanglingThumbnail | backend/src/controllers/postController.js:179-198 | when the new image fails, the update is refused, the record still references the old thumbnail, and that file has been deleted |
| Lifecycle.CreateSucceedsIff | backend/src/controllers/postController.js:108-162 | under a fresh id a create succeeds exactly when the fields pass the rules, a thumbnail (if any) exists and is written and its raw upload deleted, and the slug is free |
| Lifecycle.UpdateSucceedsIff | backend/src/controllers/postController.js:165-255 | an update succeeds exactly when the id exists, the fields pass the rules and a thumbnail (if any) survives the old thumbnail's deletion, is written and its raw upload deleted |
| Listing.PrecedesIsStrictTotal | backend/src/controllers/postController.js:37 | the listing order is irreflexive, asymmetric, transitive and total on stored posts |
| Listing.Insert | backend/src/controllers/postController.js:37 | inserting a key into a sorted sequence keeps it sorted and adds exactly that key |
| Listing.SortedUnique | backend/src/controllers/postController.js:37 | two sorted sequences of the same keys are equal, so the order fixes the listing |
| Listing.SortedCount | backend/src/controllers/postController.js:42 | a sorted sequence has no repeated key, so its length is the number of its keys |
| Listing.Window | backend/src/controllers/postController.js:38-39 | the window starts at `skip`, holds as many posts as the absolute value of the limit or all that remain (all when the limit is 0), each the ranking's post at its position |
| Listing.PageCount | backend/src/controllers/postController.js:51 | for a positive limit the count is the least number of pages that hold the total; a zero limit gives no number; a negative limit gives the ceiling quotient of a negative divisor |
| Listing.RankPosts | backend/src/controllers/postController.js:35-37 | the result is sorted and holds exactly the matching posts |
| Listing.GetPosts | backend/src/controllers/postController.js:7-57 | a negative skip is the only error; otherwise the data is the window of the ranking at `(page-1)*limit`, every item matches the query, at most the absolute value of the limit in items, page and limit echoed, total the number of matches, pages their ceiling quotient |
| Listing.DefaultListsPublishedOnly | backend/src/controllers/postController.js:12-18 | without a status only published posts match |
| Listing.SearchIgnoresCase | backend/src/controllers/postController.js:28-33 | a lower-cased search term matches exactly the posts the original term matches |
| Listing.PageFilledIffWithinPages | backend/src/controllers/postController.js:38-51 | with a positive limit, a page skips past fewer posts than the total exactly when its number is at most the page count |
| Listing.ConsecutivePagesTile | backend/src/controllers/postController.js:38-39 | two consecutive pages together are the window of twice the limit: pages neither overlap nor leave gaps |
| Markdown.FirstHeading | tools/obsidian-sync.js:166 | found exactly when `FirstMatch` finds a position, and then the capture at that leftmost position, one line and non-empty |
| Markdown.FirstMatch | tools/obsidian-sync.js:166 | the leftmost position at or after the start where the heading pattern matches: it matches there and at no earlier position; none exactly when no position matches |
| Markdown.FirstOfTwoHeadings | tools/obsidian-sync.js:166 | of two heading lines, the first gives the title |
| Markdown.ExtractTitle | tools/obsidian-sync.js:165-168 | no title exactly when no line matches `#` and whitespace; otherwise the trimmed capture at a matching position before which no position matches |
| Markdown.TitleIsOneLine | tools/obsidian-sync.js:166-167 | a title never holds a line terminator |
| Markdown.HeadingLineIsTitle | tools/obsidian-sync.js:166-167 | a document opening with `# ` and a line has that line, trimmed, as title |
| Markdown.SubheadingIsNoTitle | tools/obsidian-sync.js:166 | `## Sub` has no title |
| Markdown.BareHashTakesNextLine | tools/obsidian-sync.js:166 | the greedy whitespace crosses a line end: `#` then `Idea` on the next line gives the title `Idea` |
| Markdown.JoinLines | tools/obsidian-sync.js:179 | no line feed remains after newline runs become spaces |
| Markdown.Clean | tools/obsidian-sync.js:173-180 | the cleaned text is no longer than the input, on one line and trimmed |
| Markdown.GenerateExcerpt | tools/obsidian-sync.js:171-187 | text that fits is returned cleaned; longer text is cut to `maxLength`, trimmed and followed by `...`, at most `maxLength + 3` long; never a line feed |
| Markdown.CleanOfPlain | tools/obsidian-sync.js:173-180 | text without markup characters, on one line and trimmed, comes out of cleaning unchanged |
| Markdown.PlainTextIsOwnExcerpt | tools/obsidian-sync.js:182-186 | plain text that fits is its own excerpt |
| Markdown.PlainTextIsCut | tools/obsidian-sync.js:182-186 | longer plain text becomes its first `maxLength` characters, trimmed, and `...` |
| Markdown.HeadingLosesMarker | tools/obsidian-sync.js:174 | a heading line loses `# ` and keeps its text |
| Markdown.BoldExample | tools/obsidian-sync.js:175 | `**b** c` loses its bold markers |
| Markdown.LinkExample | tools/obsidian-sync.js:177 | `[x](y)` becomes `x` |
| Markdown.JoinLinesExample | tools/obsidian-sync.js:179 | two line feeds in a row become one space |
| ObsidianSync.LoadSyncMap | tools/obsidian-sync.js:35-46 | a missing or unreadable map loads as empty; a stored one as it is |
| ObsidianSync.BuildPostData | tools/obsidian-sync.js:100-107 | truthy front matter fields win; otherwise the title is the document's first heading, the excerpt the generated one of at most 203 characters on one line, the status `draft`, the category empty; tags are the given list or none; content is the body |
| ObsidianSync.KnownId | tools/obsidian-sync.js:124-126 | a file counts as synced exactly when the map holds a non-empty id for it |
| ObsidianSync.SyncPost | tools/obsidian-sync.js:90-162 | no request exactly when the note is unreadable or has no title; a synced file is updated under its id with the map unchanged; a new file is created and its id recorded once accepted; a refused request changes nothing |
| ObsidianSync.OnFileEvent | tools/obsidian-sync.js:216-226 | a markdown file is synced; any other file changes nothing |
| ObsidianSync.MapOnlyGrows | tools/obsidian-sync.js:124-149 | no map entry is removed, no non-empty id replaced, and only the synced file can be added |
| ObsidianSync.SecondSyncUpdates | tools/obsidian-sync.js:124-149 | once a titled note is created under a non-empty id, its next titled sync updates that post and keeps the map |
| ObsidianSync.EmptyFrontmatterDefaults | tools/obsidian-sync.js:100-107 | an empty front matter gives the first heading, the generated excerpt, draft, no category and no tags |
| ObsidianSync.EmptyFieldsFallBack | tools/obsidian-sync.js:100-107 | empty strings in the front matter count as absent |
| ObsidianSync.GeneratedExcerptFitsSchema | tools/obsidian-sync.js:103 | a generated excerpt always fits the schema's 500-character bound |
| ObsidianSync.MarkdownFileSynced | tools/obsidian-sync.js:218 | `notes/a.md` triggers a sync |
| ObsidianSync.UpperCaseExtensionIgnored | tools/obsidian-sync.js:218 | `a.MD` does not: the comparison is case-sensitive |
| ObsidianSync.DotfileIgnored | tools/obsidian-sync.js:218 | `.md` has no extension and does not trigger a sync |
| ObsidianSync.BackupIgnored | tools/obsidian-sync.js:223 | `a.md.bak` does not trigger a sync |
| Helpers.Substr | frontend/src/utils/helpers.js:24 | `substr(0, n)` is empty for `n <= 0`, the prefix of length `n` within the text, and the whole text beyond it |
| Helpers.TruncateText | frontend/src/utils/helpers.js:22-25 | text that fits is returned whole; longer text becomes its prefix of `maxLength` characters (none for a negative length) followed by `...`, exactly 3 longer |
| Helpers.TruncateTextIdempotent | frontend/src/utils/helpers.js:22-25 | truncating a truncated text again at the same length changes nothing |
| Helpers.TruncateTextIsPrefixOrWhole | frontend/src/utils/helpers.js:22-25 | the result is the text or a prefix of it followed by `...` |
| Helpers.GetFileUrl | frontend/src/utils/helpers.js:28-32 | empty exactly for a missing or empty path; `http` paths unchanged; others get a leading `/`; so a non-empty result starts with `/` or `http` |
| Helpers.UploadUrlIsRootRelative | frontend/src/utils/helpers.js:28-32 | a stored upload path is served from the site root |
| Helpers.CreateExcerpt | frontend/src/utils/helpers.js:42-45 | the stripped text when it fits the length (200 by default); longer text becomes its first `maxLength` characters (none for a negative length) followed by `...`; with the default, at most 203 characters |
| AudioPlayer.SecondsPart | frontend/src/components/AudioPlayer.js:57 | JavaScript's remainder: in `0..59` for a non-negative time, in `-59..0` for a negative one, and the time minus it is a multiple of 60 |
| AudioPlayer.FormatTime | frontend/src/components/AudioPlayer.js:54-59 | not a number shows `0:00`; a non-negative time shows a colon |
| AudioPlayer.SecondsField | frontend/src/components/AudioPlayer.js:58 | seconds below 60 show as exactly two digits that read back as the seconds |
| AudioPlayer.FormatTimeShape | frontend/src/components/AudioPlayer.js:56-58 | a non-negative time shows as decimal minutes, a colon and the two-digit seconds |
| AudioPlayer.FormatTimeRoundTrip | frontend/src/components/AudioPlayer.js:56-58 | for a non-negative whole number of seconds, reading the display back as minutes times 60 plus seconds gives the time |
| AudioPlayer.SixtyFiveSeconds | frontend/src/components/AudioPlayer.js:54-59 | 65 seconds show as `1:05` |
| AudioPlayer.NegativeTime | frontend/src/components/AudioPlayer.js:56-58 | -1 shows as `-1:0-1`, the remainder keeping the sign |
| Editor.NonEmpty | frontend/src/pages/PostEditor.js:144 | a string is kept exactly when it is in the input and non-empty; each kept string comes from the input; the whole list is kept when none is empty |
| Editor.NonEmptyOfConcat | frontend/src/pages/PostEditor.js:144 | filtering a concatenation is the concatenation of the filtered parts, so the input's order is kept |
| Editor.ParseTags | frontend/src/pages/PostEditor.js:144 | the tags are the comma pieces, each trimmed, without the empty ones; every parsed tag is non-empty, trimmed and free of commas |
| Editor.TrimEachOfTrimmed | frontend/src/pages/PostEditor.js:144 | pieces that are already trimmed pass the per-piece `trim` unchanged |
| Editor.ParseTagsDropsBlank | frontend/src/pages/PostEditor.js:144 | `a,,b` gives the tags `a` and `b` |
| Editor.NonEmptyDropsBlank | frontend/src/pages/PostEditor.js:144 | the filter turns `a`, empty, `b` into `a`, `b` |
| Editor.SplitJoinedTags | frontend/src/pages/PostEditor.js:55 | splitting `tags.join(', ')` at commas gives the first tag and each later tag with a leading space |
| Editor.ParseTagsEmpty | frontend/src/pages/PostEditor.js:143-148 | an empty field yields no tags |
| Editor.ParseJoinTags | frontend/src/pages/PostEditor.js:55-144 | parsing joined tags gives the tags back when each is non-empty, trimmed and free of commas |
| Editor.LoadForm | frontend/src/pages/PostEditor.js:50-57 | title and content are loaded as stored; excerpt and category are the stored text, or empty when missing; the tag field is the tags joined with `, `; the status reads back as the stored one |
| Editor.LoadKeepsTags | frontend/src/pages/PostEditor.js:50-57 | loading a post and parsing its tag field gives the stored tags back, provided each is non-empty and free of commas (the schema only trims them) |
| Editor.CommaTagSplits | frontend/src/pages/PostEditor.js:55-144 | a stored tag `a,b` comes back from the form as the two tags `a` and `b` |
| Editor.TextEntries | frontend/src/pages/PostEditor.js:136-140 | the five text fields are always sent, as text |
| Editor.Submit | frontend/src/pages/PostEditor.js:124-168 | refused exactly when title or content is empty; sent to `update(id)` exactly in edit mode and to `create` otherwise; the five text fields come first |
| Editor.SubmitSendsTagsAndChosenFiles | frontend/src/pages/PostEditor.js:142-159 | the tag entries sent are exactly the parsed tag field, and each media file is sent exactly when one was chosen |
| Editor.ClearedTagFieldKeepsStoredTags | frontend/src/pages/PostEditor.js:143-148 | emptying the tag field sends no tag entry, so the update keeps the stored tags |
| Editor.BlankTitlePassesEditorOnly | frontend/src/pages/PostEditor.js:127-130 | a title of one space passes the page and is refused by the server's title check |

## Left out

- Unicode case mapping: `toLowerCase` and the `/i` flag are modelled on ASCII letters only.
- String lengths count code points, not UTF-16 code units.
- The `search` term is a literal substring, not a regular expression.
- `path.join` normalisation of `.` and `..` segments is not modelled; joined names carry no separator.
- MongoDB itself: `populate`, query execution, the unique index as a mechanism (a taken slug is an error result), and `distinct` with `getCategories` and `getTags`.
- Mass assignment of request-body fields outside title, content, excerpt, status, category and tags.
- The nesting of media under `media` in JSON and the body's `media` seeding are folded into the video and audio slots.
- Concurrency: the non-atomic view increment and racing updates.
- Image resizing and encoding by `sharp`; its outcome is a parameter.
- Network and process plumbing of the sync tool: file watching, HTTP calls, environment loading, the auth token, `process.exit`, the shutdown handler, and the JSON load and save of the map.
- Front matter parsing, and front matter values that are not strings.
- Page and limit values that do not parse as numbers, and fractional ones: `?page=1.5` computes the skip from 1.5 while `parseInt` echoes page 1 (postController.js lines 39 and 48); the model's page and limit are integers.
- `formatDate`, `formatFileSize` and `stripHtml`: locale, floating point and the DOM. `stripHtml` is a parameter of `Helpers.CreateExcerpt`.
- React rendering, hooks and navigation of the frontend pages.
- The example title `"Hello, World!  Foo--Bar"` is not worked through: a literal of that length is too costly to evaluate step by step. Its three effects are each shown on a shorter title.
- Lifecycle.CreatePost: one clock reading stands for the separate `Date.now()` calls of the `createdAt` and `updatedAt` defaults, the first save hook and the second (Post.js lines 71, 75, 89 and 96), so a new post's three dates are equal in the model only.
- Lifecycle.SavedNewDocument: states `createdAt`, `updatedAt` and `publishedAt` equal to the one clock reading, for the same reason.
- PostModel.RunSaveHooks: one clock reading serves both hooks, where each calls `Date.now()` itself.
- Upload.SizeLimit: `MAX_FILE_SIZE` is read as a whole number of megabytes. The code multiplies whatever text the variable holds, so `"2.5"` gives 2,621,440 bytes and a non-numeric value gives no limit at all.
- Upload.AcceptUpload: uses that whole-number limit, for the same reason.
- Upload.HandleUploadError: the size message renders the whole number, where the code echoes the variable's raw text (`"050"` shows as `050MB`).
- Listing.GetPosts: the order among posts with the same `publishedAt` is the model's choice, by ascending id; the database leaves it unspecified.
- AudioPlayer.FormatTime: covers whole seconds only, not fractional positions or infinities.
- PostModel.PublishedAtSetByFirstPublish: states when a date appears, not which save's time it is; `PostModel.RunSaveHooks` states the time for each save.
- Markdown.HeadingLosesMarker: assumes no `#` anywhere in the heading text, more than the replacement needs.

=== FILE: audio.dfy ===
/**
 * The audio player's `formatTime`: a playback position in seconds shown
 * as minutes, a colon and two-digit seconds.
 */
module AudioPlayer {
  import opened Wrappers
  import opened Strings

  /** `Math.floor(time % 60)` for whole seconds: JavaScript's `%` keeps the
      sign of the dividend, so a negative time has negative seconds. */
  function SecondsPart(t: int): (r: int)
    ensures t >= 0 ==> 0 <= r < 60 && r == t % 60
    ensures t < 0 ==> -60 < r <= 0
    ensures (t - r) % 60 == 0
  {
    if t >= 0 then t % 60 else -((-t) % 60)
  }

  /** `formatTime`: `0:00` for a position that is not a number (`None`),
      otherwise `floor(t / 60)`, a colon, and the seconds with a leading
      `0` below 10. */
  function FormatTime(time: Option<int>): (r: string)
    ensures time.None? ==> r == "0:00"
    ensures time.Some? && time.value >= 0 ==> ':' in r
  {
    match time
    case None => "0:00"
    case Some(t) =>
      var minutes := t / 60;
      var seconds := SecondsPart(t);
      IntToString(minutes) + ":" + (if seconds < 10 then "0" else "") + IntToString(seconds)
  }

  /** Reads `m:ss` back: minutes and seconds as decimal digits. */
  function ReadTime(s: string): (r: Option<int>)
  {
    var parts := Split(s, ':');
    if |parts| == 2 && AllDigits(parts[0]) && AllDigits(parts[1]) && |parts[1]| == 2 then
      Some(ParseDecimal(parts[0]) * 60 + ParseDecimal(parts[1]))
    else None
  }

  predicate AllDigits(s: string) {
    forall i :: 0 <= i < |s| ==> IsDigit(s[i])
  }

  /** The two-digit seconds field of a non-negative time. */
  function SecondsField(sec: nat): (r: string)
    requires sec < 60
    ensures |r| == 2 && AllDigits(r) && ParseDecimal(r) == sec
  {
    ParseNatToString(sec);
    if sec < 10 then
      var r := "0" + NatToString(sec);
      assert NatToString(sec) == [DigitChar(sec)];
      assert r[..1] == "0" && r[1] == DigitChar(sec);
      r
    else
      assert NatToString(sec / 10) == [DigitChar(sec / 10)];
      "" + NatToString(sec)
  }

  /** The display of a non-negative time: decimal minutes, a colon, and
      the two-digit seconds field. */
  lemma FormatTimeShape(t: nat)
    ensures FormatTime(Some(t)) == NatToString(t / 60) + [':'] + SecondsField(t % 60)
  {
    assert SecondsPart(t) == t % 60;
    assert IntToString(t / 60) == NatToString(t / 60);
    assert IntToString(t % 60) == NatToString(t % 60);
  }

  lemma DigitsHaveNoColon(s: string)
    requires AllDigits(s)
    ensures ':' !in s
  {
    forall i | 0 <= i < |s| ensures s[i] != ':' {
      assert IsDigit(s[i]);
    }
  }

  /** For a non-negative whole number of seconds the display is exact:
      minutes times 60 plus the two-digit seconds give the time back. */
  lemma FormatTimeRoundTrip(t: nat)
    ensures ReadTime(FormatTime(Some(t))) == Some(t)
  {
    var m := NatToString(t / 60);
    var sec := SecondsField(t % 60);
    FormatTimeShape(t);
    assert AllDigits(m);
    DigitsHaveNoColon(m);
    DigitsHaveNoColon(sec);
    SplitAtSeparator(m, ':', sec);
    SplitNoSeparator(sec, ':');
    var parts := Split(FormatTime(Some(t)), ':');
    assert parts == [m, sec];
    ParseNatToString(t / 60);
    assert ParseDecimal(m) * 60 + ParseDecimal(sec) == t;
  }

  /** 65 seconds show as `1:05`. */
  lemma SixtyFiveSeconds()
    ensures FormatTime(Some(65)) == "1:05"
  {
    assert NatToString(1) == "1";
    assert NatToString(5) == "5";
  }

  /** A negative time keeps JavaScript's signs: -1 shows as `-1:0-1`. */
  lemma NegativeTime()
    ensures FormatTime(Some(-1)) == "-1:0-1"
  {
    assert NatToString(1) == "1";
  }
}

=== FILE: editor.dfy ===
/**
 * The post editor page: loading a post into the form, the tag field's
 * comma-separated text, and what a submission sends where.
 */
module Editor {
  import opened Wrappers
  import opened Strings
  import opened PostModel
  import Lifecycle
  import ImageProcessor

  /** The form's fields, all text. */
  datatype Form = Form(
    title: string, content: string, excerpt: string,
    category: string, tags: string, status: string)

  /** The file chosen for each media field, if any. */
  datatype ChosenFiles = ChosenFiles(thumbnail: Option<string>, video: Option<string>, audio: Option<string>)

  /** One entry of the multipart form data. */
  datatype Entry = Text(name: string, value: string) | File(name: string, file: string)

  datatype Target = CreatePost | UpdatePost(id: string)

  /** A submission is refused on the page, or sent to a target. */
  datatype Submission = Refused | Send(target: Target, entries: seq<Entry>)

  const TagSeparator := ", "
  const TagsEntry := "tags[]"

  /** The route has a non-empty `id` parameter. */
  predicate IsEditMode(routeId: Option<string>) {
    routeId.Some? && routeId.value != ""
  }

  // ---------------------------------------------------------------------
  // The tag field

  function TrimEach(parts: seq<string>): (r: seq<string>)
    ensures |r| == |parts| && forall k :: 0 <= k < |r| ==> r[k] == Trim(parts[k])
  {
    seq(|parts|, k requires 0 <= k < |parts| => Trim(parts[k]))
  }

  /** `filter(tag => tag)`: the non-empty strings, in order. */
  function NonEmpty(parts: seq<string>): (r: seq<string>)
    ensures |r| <= |parts|
    ensures forall k :: 0 <= k < |r| ==> r[k] != "" && r[k] in parts
    ensures forall x :: x in r <==> x in parts && x != ""
    ensures (forall k :: 0 <= k < |parts| ==> parts[k] != "") ==> r == parts
  {
    if parts == [] then []
    else if parts[0] == "" then NonEmpty(parts[1..])
    else [parts[0]] + NonEmpty(parts[1..])
  }

  /** Filtering distributes over concatenation, so the pieces kept
      appear in the order of the input. */
  lemma {:induction false} NonEmptyOfConcat(a: seq<string>, b: seq<string>)
    ensures NonEmpty(a + b) == NonEmpty(a) + NonEmpty(b)
    decreases |a|
  {
    if a == [] {
      assert a + b == b;
    } else {
      assert (a + b)[0] == a[0];
      assert (a + b)[1..] == a[1..] + b;
      NonEmptyOfConcat(a[1..], b);
    }
  }

  /** Pieces that are already trimmed pass through unchanged. */
  lemma TrimEachOfTrimmed(parts: seq<string>)
    requires forall k :: 0 <= k < |parts| ==> IsTrimmed(parts[k])
    ensures TrimEach(parts) == parts
  {
    forall k | 0 <= k < |parts| ensures Trim(parts[k]) == parts[k] {
      TrimOfTrimmed(parts[k]);
    }
  }

  /** The tag list read from the field: split at commas, each piece
      trimmed, empty pieces dropped. */
  function ParseTags(text: string): (r: seq<string>)
    ensures forall k :: 0 <= k < |r| ==> r[k] != "" && ',' !in r[k] && IsTrimmed(r[k])
    ensures r == NonEmpty(TrimEach(Split(text, ',')))
  {
    var pieces := Split(text, ',');
    var trimmed := TrimEach(pieces);
    assert forall k :: 0 <= k < |trimmed| ==> ',' !in trimmed[k] && IsTrimmed(trimmed[k]) by {
      forall k | 0 <= k < |trimmed| ensures ',' !in trimmed[k] && IsTrimmed(trimmed[k]) {
        TrimIsTrimmed(pieces[k]);
        TrimKeepsOut(pieces[k], ',');
      }
    }
    NonEmpty(trimmed)
  }

  /** The field text for a stored tag list: `tags.join(', ')`. */
  function JoinTags(tags: seq<string>): string {
    Join(tags, TagSeparator)
  }

  /** Each tag after the first, as `split(',')` cuts it out of the joined
      text: with the space of the separator in front. */
  function Spaced(tags: seq<string>): (r: seq<string>)
    ensures |r| == |tags| && forall k :: 0 <= k < |r| ==> r[k] == " " + tags[k]
  {
    seq(|tags|, k requires 0 <= k < |tags| => " " + tags[k])
  }

  lemma {:induction false} SplitJoinedTags(tags: seq<string>)
    requires |tags| >= 1
    requires forall k :: 0 <= k < |tags| ==> ',' !in tags[k]
    ensures Split(JoinTags(tags), ',') == [tags[0]] + Spaced(tags[1..])
    decreases |tags|
  {
    if |tags| == 1 {
      SplitNoSeparator(tags[0], ',');
    } else {
      var rest := JoinTags(tags[1..]);
      assert JoinTags(tags) == tags[0] + [','] + (" " + rest);
      SplitAtSeparator(tags[0], ',', " " + rest);
      SplitJoinedTags(tags[1..]);
      var p := Split(rest, ',');
      assert p == [tags[1]] + Spaced(tags[2..]);
      assert (" " + rest)[1..] == rest;
      assert Split(" " + rest, ',') == [" " + p[0]] + p[1..];
      assert [" " + p[0]] + p[1..] == Spaced(tags[1..]);
    }
  }

  /** An empty field holds no tags. */
  lemma ParseTagsEmpty()
    ensures ParseTags("") == []
  {
    assert Split("", ',') == [""];
    assert Trim("") == "";
    assert TrimEach([""]) == [""];
  }

  /** An empty piece between commas is dropped; the others are kept in
      order. */
  lemma ParseTagsDropsBlank()
    ensures ParseTags("a,,b") == ["a", "b"]
  {
    SplitWithBlank();
    TrimEachWithBlank();
    NonEmptyDropsBlank();
  }

  lemma TrimEachWithBlank()
    ensures TrimEach(["a", "", "b"]) == ["a", "", "b"]
  {
    var parts: seq<string> := ["a", "", "b"];
    assert IsTrimmed(parts[0]) && IsTrimmed(parts[1]) && IsTrimmed(parts[2]);
    TrimEachOfTrimmed(parts);
  }

  lemma SplitWithBlank()
    ensures Split("a,,b", ',') == ["a", "", "b"]
  {
    assert "a,,b" == "a" + [','] + ",b";
    assert ",b" == "" + [','] + "b";
    SplitNoSeparator("b", ',');
    SplitAtSeparator("", ',', "b");
    SplitAtSeparator("a", ',', ",b");
  }

  lemma NonEmptyDropsBlank()
    ensures NonEmpty(["a", "", "b"]) == ["a", "b"]
  {
    var last: seq<string> := ["b"];
    var tail: seq<string> := [""] + last;
    assert NonEmpty(tail) == last by {
      assert tail[1..] == last;
    }
    assert ["a", "", "b"][1..] == tail;
  }

  /** Reading back the joined tags gives the tags, when each is non-empty,
      trimmed and free of commas. */
  lemma ParseJoinTags(tags: seq<string>)
    requires forall k :: 0 <= k < |tags| ==> tags[k] != "" && IsTrimmed(tags[k]) && ',' !in tags[k]
    ensures ParseTags(JoinTags(tags)) == tags
  {
    if tags == [] {
      assert JoinTags(tags) == "";
      ParseTagsEmpty();
    } else {
      SplitJoinedTags(tags);
      var pieces := Split(JoinTags(tags), ',');
      assert pieces == [tags[0]] + Spaced(tags[1..]);
      forall k | 0 <= k < |pieces| ensures Trim(pieces[k]) == tags[k] {
        if k == 0 {
          TrimOfTrimmed(tags[0]);
        } else {
          assert pieces[k] == " " + tags[k];
          TrimLeadingSpaces(" ", tags[k]);
        }
      }
      var trimmed := TrimEach(pieces);
      assert trimmed == tags;
      assert ParseTags(JoinTags(tags)) == NonEmpty(trimmed);
    }
  }

  // ---------------------------------------------------------------------
  // Loading and submitting

  /** The form filled from a fetched post: a missing excerpt or category
      becomes empty, the tags are joined, the status is its name. */
  function LoadForm(post: Post): (r: Form)
    ensures r.title == post.title && r.content == post.content
    ensures r.excerpt == "" <==> post.excerpt.None? || post.excerpt.value == ""
    ensures post.excerpt.Some? ==> r.excerpt == post.excerpt.value
    ensures r.category == "" <==> post.category.None? || post.category.value == ""
    ensures post.category.Some? ==> r.category == post.category.value
    ensures r.tags == JoinTags(post.tags)
    ensures ParseStatus(r.status) == Some(post.status)
  {
    Form(post.title, post.content, post.excerpt.GetOr(""), post.category.GetOr(""),
         JoinTags(post.tags), StatusName(post.status))
  }

  /** Opening a stored post and saving it unchanged sends back its tags:
      stored tags are trimmed by the schema, and the form keeps them when
      they are non-empty and free of commas. */
  lemma LoadKeepsTags(post: Post)
    requires forall k :: 0 <= k < |post.tags| ==> post.tags[k] != "" && IsTrimmed(post.tags[k]) && ',' !in post.tags[k]
    ensures ParseTags(LoadForm(post).tags) == post.tags
  {
    ParseJoinTags(post.tags);
  }

  /** A stored tag holding a comma comes back from the form as two tags:
      the field joins the tags with `, ` and splits them at every comma. */
  lemma CommaTagSplits()
    ensures ParseTags(JoinTags(["a,b"])) == ["a", "b"]
  {
    assert JoinTags(["a,b"]) == "a,b";
    var pieces: seq<string> := ["a", "b"];
    SplitAtComma();
    assert IsTrimmed(pieces[0]) && IsTrimmed(pieces[1]);
    TrimEachOfTrimmed(pieces);
    NonEmptyKeepsPlain();
  }

  lemma SplitAtComma()
    ensures Split("a,b", ',') == ["a", "b"]
  {
    assert "a,b" == "a" + [','] + "b";
    SplitNoSeparator("b", ',');
    SplitAtSeparator("a", ',', "b");
  }

  lemma NonEmptyKeepsPlain()
    ensures NonEmpty(["a", "b"]) == ["a", "b"]
  {
    var pieces: seq<string> := ["a", "b"];
    assert |pieces[0]| == 1 && |pieces[1]| == 1;
  }

  function TagEntries(tags: seq<string>): (r: seq<Entry>)
    ensures |r| == |tags| && forall k :: 0 <= k < |r| ==> r[k] == Text(TagsEntry, tags[k])
  {
    seq(|tags|, k requires 0 <= k < |tags| => Text(TagsEntry, tags[k]))
  }

  function FileEntry(name: string, file: Option<string>): (r: seq<Entry>)
    ensures |r| <= 1
  {
    if file.Some? then [File(name, file.value)] else []
  }

  /** The five text fields, always sent. */
  function TextEntries(form: Form): (r: seq<Entry>)
    ensures |r| == 5 && forall k :: 0 <= k < 5 ==> r[k].Text?
  {
    [Text("title", form.title), Text("content", form.content), Text("excerpt", form.excerpt),
     Text("category", form.category), Text("status", form.status)]
  }

  /** One entry per parsed tag, when the field is not empty. */
  function TagPart(form: Form): seq<Entry> {
    if form.tags != "" then TagEntries(ParseTags(form.tags)) else []
  }

  /** One entry per chosen file, in the order thumbnail, video, audio. */
  function MediaEntries(files: ChosenFiles): seq<Entry> {
    FileEntry("thumbnail", files.thumbnail) + FileEntry("video", files.video) + FileEntry("audio", files.audio)
  }

  /** `handleSubmit`: an empty title or content is refused on the page;
      otherwise the five text fields always go, then one entry per tag,
      then each chosen file, to `update(id)` in edit mode and to `create`
      otherwise. */
  function Submit(form: Form, files: ChosenFiles, routeId: Option<string>): (r: Submission)
    ensures r.Refused? <==> form.title == "" || form.content == ""
    ensures r.Send? ==> (r.target.UpdatePost? <==> IsEditMode(routeId))
    ensures r.Send? && r.target.UpdatePost? ==> r.target.id == routeId.value
    ensures r.Send? ==> |r.entries| >= 5 && r.entries[..5] == TextEntries(form)
  {
    if form.title == "" || form.content == "" then Refused
    else
      var target := if IsEditMode(routeId) then UpdatePost(routeId.value) else CreatePost;
      Send(target, TextEntries(form) + TagPart(form) + MediaEntries(files))
  }

  /** The values of the text entries called `name`, in order. */
  function Values(entries: seq<Entry>, name: string): (r: seq<string>)
    ensures |r| <= |entries|
  {
    if entries == [] then []
    else if entries[0].Text? && entries[0].name == name then [entries[0].value] + Values(entries[1..], name)
    else Values(entries[1..], name)
  }

  /** Whether a file was sent under `name`. */
  predicate HasFile(entries: seq<Entry>, name: string) {
    exists k :: 0 <= k < |entries| && entries[k].File? && entries[k].name == name
  }

  lemma {:induction false} ValuesOfConcat(a: seq<Entry>, b: seq<Entry>, name: string)
    ensures Values(a + b, name) == Values(a, name) + Values(b, name)
    decreases |a|
  {
    if a == [] {
      assert a + b == b;
    } else {
      var ab := a + b;
      assert ab != [] && ab[0] == a[0];
      assert ab[1..] == a[1..] + b;
      ValuesOfConcat(a[1..], b, name);
      if a[0].Text? && a[0].name == name {
        assert Values(ab, name) == [a[0].value] + Values(a[1..] + b, name);
        assert Values(a, name) == [a[0].value] + Values(a[1..], name);
      } else {
        assert Values(ab, name) == Values(a[1..] + b, name);
        assert Values(a, name) == Values(a[1..], name);
      }
    }
  }

  lemma {:induction false} ValuesOfTags(tags: seq<string>)
    ensures Values(TagEntries(tags), TagsEntry) == tags
    decreases |tags|
  {
    if tags != [] {
      assert TagEntries(tags)[1..] == TagEntries(tags[1..]);
      ValuesOfTags(tags[1..]);
    }
  }

  lemma HasFileConcat(a: seq<Entry>, b: seq<Entry>, name: string)
    ensures HasFile(a + b, name) <==> HasFile(a, name) || HasFile(b, name)
  {
    if HasFile(a + b, name) {
      var k :| 0 <= k < |a + b| && (a + b)[k].File? && (a + b)[k].name == name;
      if k >= |a| {
        assert b[k - |a|] == (a + b)[k];
      }
    }
    if HasFile(a, name) {
      var k :| 0 <= k < |a| && a[k].File? && a[k].name == name;
      assert (a + b)[k] == a[k];
    }
    if HasFile(b, name) {
      var k :| 0 <= k < |b| && b[k].File? && b[k].name == name;
      assert (a + b)[|a| + k] == b[k];
    }
  }

  lemma MediaFiles(files: ChosenFiles)
    ensures Values(MediaEntries(files), TagsEntry) == []
    ensures HasFile(MediaEntries(files), "thumbnail") <==> files.thumbnail.Some?
    ensures HasFile(MediaEntries(files), "video") <==> files.video.Some?
    ensures HasFile(MediaEntries(files), "audio") <==> files.audio.Some?
  {
    var a := FileEntry("thumbnail", files.thumbnail);
    var b := FileEntry("video", files.video);
    var c := FileEntry("audio", files.audio);
    ValuesOfConcat(a + b, c, TagsEntry);
    ValuesOfConcat(a, b, TagsEntry);
    forall name | name == "thumbnail" || name == "video" || name == "audio"
      ensures HasFile(MediaEntries(files), name) <==> HasFile(a, name) || HasFile(b, name) || HasFile(c, name)
    {
      HasFileConcat(a + b, c, name);
      HasFileConcat(a, b, name);
    }
    if files.thumbnail.Some? { assert a[0].name == "thumbnail"; }
    if files.video.Some? { assert b[0].name == "video"; }
    if files.audio.Some? { assert c[0].name == "audio"; }
  }

  lemma TextValues(form: Form)
    ensures Values(TextEntries(form), TagsEntry) == []
  {
    var e := TextEntries(form);
    assert e[0].name != TagsEntry && e[1].name != TagsEntry && e[2].name != TagsEntry;
    assert e[3].name != TagsEntry && e[4].name != TagsEntry;
    NoValues(e, TagsEntry);
  }

  /** No entry is called `name`, so there is no value for it. */
  lemma {:induction false} NoValues(entries: seq<Entry>, name: string)
    requires forall k :: 0 <= k < |entries| ==> entries[k].name != name
    ensures Values(entries, name) == []
    decreases |entries|
  {
    if entries != [] {
      NoValues(entries[1..], name);
    }
  }

  lemma TagValues(form: Form)
    ensures Values(TagPart(form), TagsEntry) == ParseTags(form.tags)
  {
    if form.tags != "" {
      ValuesOfTags(ParseTags(form.tags));
    } else {
      ParseTagsEmpty();
    }
  }

  lemma FormHasNoFiles(form: Form, name: string)
    ensures !HasFile(TextEntries(form) + TagPart(form), name)
  {
    HasFileConcat(TextEntries(form), TagPart(form), name);
    if form.tags != "" {
      var t := TagEntries(ParseTags(form.tags));
      assert forall k :: 0 <= k < |t| ==> t[k].Text?;
    }
  }

  /** The tag entries sent are exactly the parsed tag field, and a media
      file is sent exactly when one was chosen. */
  lemma SubmitSendsTagsAndChosenFiles(form: Form, files: ChosenFiles, routeId: Option<string>)
    requires Submit(form, files, routeId).Send?
    ensures var e := Submit(form, files, routeId).entries;
      && Values(e, TagsEntry) == ParseTags(form.tags)
      && (HasFile(e, "thumbnail") <==> files.thumbnail.Some?)
      && (HasFile(e, "video") <==> files.video.Some?)
      && (HasFile(e, "audio") <==> files.audio.Some?)
  {
    var front := TextEntries(form) + TagPart(form);
    var media := MediaEntries(files);
    assert Submit(form, files, routeId).entries == front + media;
    TextValues(form);
    TagValues(form);
    FormHasNoFiles(form, "thumbnail");
    FormHasNoFiles(form, "video");
    FormHasNoFiles(form, "audio");
    MediaFiles(files);
    ValuesOfConcat(front, media, TagsEntry);
    ValuesOfConcat(TextEntries(form), TagPart(form), TagsEntry);
    HasFileConcat(front, media, "thumbnail");
    HasFileConcat(front, media, "video");
    HasFileConcat(front, media, "audio");
  }

  /** The body the server reads from the entries: each text field once it
      was sent, the tag list only when a tag entry was sent. */
  function FieldsOf(entries: seq<Entry>): (r: Lifecycle.PostFields)
    ensures r.tags.None? <==> Values(entries, TagsEntry) == []
    ensures r.tags.Some? ==> r.tags.value == Values(entries, TagsEntry)
  {
    var tags := Values(entries, TagsEntry);
    Lifecycle.PostFields(
      title := First(Values(entries, "title")),
      content := First(Values(entries, "content")),
      excerpt := First(Values(entries, "excerpt")),
      status := First(Values(entries, "status")),
      category := First(Values(entries, "category")),
      tags := if tags == [] then None else Some(tags))
  }

  function First(values: seq<string>): (r: Option<string>)
    ensures r.Some? <==> values != []
    ensures r.Some? ==> r.value == values[0]
  {
    if values == [] then None else Some(values[0])
  }

  /** Emptying the tag field of a post in the editor does not remove its
      tags: no tag entry is sent, so the update leaves the stored tags as
      they were. */
  lemma ClearedTagFieldKeepsStoredTags(form: Form, files: ChosenFiles, routeId: Option<string>,
                                       s: Lifecycle.Store, id: PostId, uploads: Lifecycle.Uploads,
                                       env: ImageProcessor.ImageEnv, failing: set<Path>)
    requires ParseTags(form.tags) == []
    requires Submit(form, files, routeId).Send?
    requires Lifecycle.UpdatePost(s, id, FieldsOf(Submit(form, files, routeId).entries), uploads, env, failing).result.Ok?
    ensures Lifecycle.UpdatePost(s, id, FieldsOf(Submit(form, files, routeId).entries), uploads, env, failing)
              .result.value.tags == s.posts[id].tags
  {
    SubmitSendsTagsAndChosenFiles(form, files, routeId);
    var body := FieldsOf(Submit(form, files, routeId).entries);
    assert body.tags.None?;
    Lifecycle.UpdateSkipsSaveHooks(s, id, body, uploads, env, failing);
  }

  /** The page checks only that the title is non-empty; a title of spaces
      passes it and is then refused by the server, whose `trim` setter
      empties it. */
  lemma BlankTitlePassesEditorOnly()
    ensures Submit(Form(" ", "x", "", "", "", "draft"), ChosenFiles(None, None, None), None).Send?
    ensures Lifecycle.TitleField in
      Lifecycle.Violations(FieldsOf(Submit(Form(" ", "x", "", "", "", "draft"), ChosenFiles(None, None, None), None).entries), true)
  {
    var form := Form(" ", "x", "", "", "", "draft");
    var e := Submit(form, ChosenFiles(None, None, None), None).entries;
    assert TagPart(form) == [];
    assert MediaEntries(ChosenFiles(None, None, None)) == [];
    assert e == TextEntries(form);
    assert Values(e, "title") == [" "];
    assert Trim(" ") == "";
  }
}

=== FILE: helpers.dfy ===
/**
 * The frontend's pure text helpers: `truncateText`, `getFileUrl` and
 * `createExcerpt`. HTML stripping needs the DOM and is a parameter.
 */
module Helpers {
  import opened Wrappers
  import opened Strings
  import Upload

  const Ellipsis := "..."
  const DefaultExcerptLength := 200

  /** `text.substr(0, n)`: a negative length counts as 0, one past the end
      as the whole text. */
  function Substr(text: string, n: int): (r: string)
    ensures n <= 0 ==> r == []
    ensures 0 <= n <= |text| ==> r == text[..n]
    ensures n > |text| ==> r == text
  {
    if n <= 0 then [] else if n > |text| then text else text[..n]
  }

  /** `truncateText`: the text when it fits, otherwise its first
      `maxLength` characters and an ellipsis. */
  function TruncateText(text: string, maxLength: int): (r: string)
    ensures |text| <= maxLength ==> r == text
    ensures |text| > maxLength ==> EndsWith(r, Ellipsis) && |r| == (if maxLength < 0 then 0 else maxLength) + 3
    ensures |text| > maxLength ==> r[..|r| - 3] == text[..|r| - 3]
  {
    if |text| <= maxLength then text else Substr(text, maxLength) + Ellipsis
  }

  /** A cut text stays cut: truncating twice at the same length is
      truncating once, since the ellipsis follows the same prefix. */
  lemma TruncateTextIdempotent(text: string, maxLength: int)
    ensures TruncateText(TruncateText(text, maxLength), maxLength) == TruncateText(text, maxLength)
  {
    var r := TruncateText(text, maxLength);
    if |text| > maxLength {
      var n := if maxLength < 0 then 0 else maxLength;
      assert r == text[..n] + Ellipsis;
      assert Substr(r, maxLength) == text[..n];
    }
  }

  /** A text is either returned whole or cut to a prefix of it. */
  lemma TruncateTextIsPrefixOrWhole(text: string, maxLength: int)
    ensures var r := TruncateText(text, maxLength);
      r == text || (exists n :: 0 <= n <= |text| && r == text[..n] + Ellipsis)
  {
    var r := TruncateText(text, maxLength);
    if |text| > maxLength {
      var n := if maxLength < 0 then 0 else maxLength;
      assert 0 <= n <= |text| && r == text[..n] + Ellipsis;
    }
  }

  /** `getFileUrl`: empty for a missing or empty path, absolute URLs
      (anything starting with `http`) unchanged, other paths made
      root-relative. */
  function GetFileUrl(path: Option<string>): (r: string)
    ensures r == "" <==> path.None? || path.value == ""
    ensures r != "" ==> StartsWith(r, "/") || StartsWith(r, "http")
    ensures path.Some? && StartsWith(path.value, "http") ==> r == path.value
    ensures path.Some? && path.value != "" && !StartsWith(path.value, "http") ==> r == "/" + path.value
  {
    match path
    case None => ""
    case Some(p) =>
      if p == "" then ""
      else if StartsWith(p, "http") then p
      else "/" + p
  }

  /** The stored path of an upload is served from the site root. */
  lemma UploadUrlIsRootRelative(mimetype: string, filename: string)
    ensures GetFileUrl(Some(Upload.StoredPath(mimetype, filename))) == "/" + Upload.StoredPath(mimetype, filename)
  {
    var p := Upload.StoredPath(mimetype, filename);
    var d := Upload.Destination(mimetype);
    assert StartsWith(d, "uploads/");
    assert p[..8] == d[..8];
    assert p[0] == 'u';
  }

  /** `createExcerpt`: the text of the HTML, truncated (200 characters by
      default). `stripHtml` reads the DOM, so it is supplied. */
  function CreateExcerpt(html: string, maxLength: Option<int>, stripHtml: string -> string): (r: string)
    ensures var n := maxLength.GetOr(DefaultExcerptLength);
      |stripHtml(html)| <= n ==> r == stripHtml(html)
    ensures var n := maxLength.GetOr(DefaultExcerptLength); var text := stripHtml(html);
      |text| > n ==>
        && EndsWith(r, Ellipsis) && |r| == (if n < 0 then 0 else n) + 3
        && r[..|r| - 3] == text[..|r| - 3]
    ensures maxLength.None? ==> |r| <= DefaultExcerptLength + 3
  {
    TruncateText(stripHtml(html), maxLength.GetOr(DefaultExcerptLength))
  }
}

=== FILE: image.dfy ===
/**
 * Image normalisation as far as it concerns stored files: the output path
 * derived from the input path, the deletion of the original, and the size
 * reported back. The resizing and encoding themselves belong to the image
 * library and enter as an outcome parameter.
 */
module ImageProcessor {
  import opened Wrappers
  import opened Strings
  import Paths

  type Path = string

  const DefaultWidth: nat := 1200
  const DefaultQuality: nat := 80
  const DefaultFormat: string := "jpeg"

  datatype ImageOptions = ImageOptions(width: Option<nat>, quality: Option<nat>, format: Option<string>)

  datatype Resolved = Resolved(width: nat, quality: nat, format: string)

  /** The option defaults: width 1200, quality 80, format jpeg. */
  function ResolveOptions(opts: ImageOptions): (r: Resolved)
    ensures opts.width.None? ==> r.width == 1200
    ensures opts.quality.None? ==> r.quality == 80
    ensures opts.format.None? ==> r.format == "jpeg"
    ensures opts.width.Some? ==> r.width == opts.width.value
    ensures opts.quality.Some? ==> r.quality == opts.quality.value
    ensures opts.format.Some? ==> r.format == opts.format.value
  {
    Resolved(opts.width.GetOr(DefaultWidth), opts.quality.GetOr(DefaultQuality), opts.format.GetOr(DefaultFormat))
  }

  /** What the image library does when asked to write the output: either it
      writes a file of some size, or it throws (unreadable or corrupt input,
      unknown format). Whether deleting the original succeeds is the
      filesystem's answer. */
  datatype ImageEnv = ImageEnv(written: Option<nat>, unlinkOk: bool)

  datatype ImageFailure = ReadFailed | EncodeFailed | UnlinkFailed

  datatype Processed = Processed(path: Path, size: nat)

  /** The result of a run together with the stored files afterwards. */
  datatype ImageRun<T> = ImageRun(result: Result<T, ImageFailure>, files: set<Path>)

  /** The output sits in the input's directory and is named after the input's
      stem with `-optimized.` and the format appended. */
  function OptimizedPath(input: Path, format: string): Path {
    Paths.Join(Paths.Dir(input), Paths.Name(input) + "-optimized." + format)
  }

  /** The optimised output never has the input's name, whatever the input,
      because its base name ends in `-optimized.` plus the format where the
      input's ends in its own extension. */
  lemma OptimizedPathDiffers(input: Path, format: string)
    requires '/' !in format
    ensures OptimizedPath(input, format) != input
    ensures Paths.Base(OptimizedPath(input, format)) == Paths.Name(input) + "-optimized." + format
  {
    var name := Paths.Name(input);
    var file := name + "-optimized." + format;
    assert '/' !in file by {
      var mark := "-optimized.";
      assert forall k :: 0 <= k < |mark| ==> mark[k] != '/';
    }
    Paths.BaseOfJoin(Paths.Dir(input), file);
    var ext := Paths.Extname(input);
    assert file != Paths.Base(input) by {
      if ext != "" {
        assert Paths.Base(input)[|name|] == '.';
        assert file[|name|] == '-';
      } else {
        assert |file| > |Paths.Base(input)|;
      }
    }
  }

  /** `processImage`: read the input, write the output, note its size, then
      delete the original when its path differs from the output's. Any
      failure is rethrown to the caller. */
  function ProcessImage(files: set<Path>, input: Path, opts: ImageOptions, env: ImageEnv): (r: ImageRun<Processed>)
    ensures r.result.Ok? ==> (input in files && env.written.Some?
      && r.result.value == Processed(OptimizedPath(input, ResolveOptions(opts).format), env.written.value))
    ensures r.result.Ok? && input != OptimizedPath(input, ResolveOptions(opts).format) ==>
      r.files == files - {input} + {OptimizedPath(input, ResolveOptions(opts).format)}
    ensures r.result.Err? ==> r.files == files || r.files == files + {OptimizedPath(input, ResolveOptions(opts).format)}
    ensures input !in files ==> r == ImageRun(Err(ReadFailed), files)
  {
    var output := OptimizedPath(input, ResolveOptions(opts).format);
    if input !in files then ImageRun(Err(ReadFailed), files)
    else if env.written.None? then ImageRun(Err(EncodeFailed), files)
    else
      var written := files + {output};
      if input == output then ImageRun(Ok(Processed(output, env.written.value)), written)
      else if !env.unlinkOk then ImageRun(Err(UnlinkFailed), written)
      else ImageRun(Ok(Processed(output, env.written.value)), written - {input} + {output})
  }

  /** With the default options, an existing input, a library that writes
      and a deletion that succeeds, the run succeeds, removes the raw
      upload, keeps the output, and reports the output's size. */
  lemma ProcessImageReplacesOriginal(files: set<Path>, input: Path, env: ImageEnv)
    requires input in files && env.written.Some? && env.unlinkOk
    ensures var r := ProcessImage(files, input, ImageOptions(None, None, None), env);
      && r.result.Ok?
      && input !in r.files
      && r.result.value.path in r.files
      && r.result.value.path == OptimizedPath(input, "jpeg")
      && r.result.value.size == env.written.value
      && r.files == files - {input} + {r.result.value.path}
  {
    var opts := ImageOptions(None, None, None);
    assert ResolveOptions(opts).format == DefaultFormat;
    var output := OptimizedPath(input, DefaultFormat);
    assert input != output by {
      OptimizedPathDiffers(input, DefaultFormat);
    }
  }

  /** With the default options the output never overwrites the input, so a
      run succeeds exactly when the input exists, the library writes, and
      the original's deletion succeeds. */
  lemma DefaultRunSucceeds(files: set<Path>, input: Path, env: ImageEnv)
    ensures ProcessImage(files, input, ImageOptions(None, None, None), env).result.Ok?
        <==> input in files && env.written.Some? && env.unlinkOk
  {
    assert ResolveOptions(ImageOptions(None, None, None)).format == DefaultFormat;
    assert input != OptimizedPath(input, DefaultFormat) by {
      OptimizedPathDiffers(input, DefaultFormat);
    }
  }

  /** The thumbnail sits beside the input, named after its stem with
      `-thumb` and the input's own extension. */
  function ThumbnailPath(input: Path): Path {
    Paths.Join(Paths.Dir(input), Paths.Name(input) + "-thumb" + Paths.Extname(input))
  }

  /** `createThumbnail`: writes the thumbnail and keeps the original. The
      requested size (default 400) only reaches the image library, whose
      outcome `env` stands for, so it is no parameter here. */
  function CreateThumbnail(files: set<Path>, input: Path, env: ImageEnv): (r: ImageRun<Path>)
    ensures r.result.Ok? ==> r.result.value == ThumbnailPath(input) && r.files == files + {ThumbnailPath(input)}
    ensures r.result.Ok? <==> input in files && env.written.Some?
    ensures r.result.Err? ==> r.files == files
  {
    if input !in files then ImageRun(Err(ReadFailed), files)
    else if env.written.None? then ImageRun(Err(EncodeFailed), files)
    else ImageRun(Ok(ThumbnailPath(input)), files + {ThumbnailPath(input)})
  }

  /** The thumbnail never overwrites its input, so a successful run keeps
      both files. */
  lemma ThumbnailKeepsOriginal(files: set<Path>, input: Path, env: ImageEnv)
    requires CreateThumbnail(files, input, env).result.Ok?
    ensures ThumbnailPath(input) != input
    ensures input in CreateThumbnail(files, input, env).files
    ensures ThumbnailPath(input) in CreateThumbnail(files, input, env).files
  {
    var name := Paths.Name(input);
    var ext := Paths.Extname(input);
    var file := name + "-thumb" + ext;
    assert '/' !in file by {
      var mark := "-thumb";
      assert forall k :: 0 <= k < |mark| ==> mark[k] != '/';
    }
    Paths.BaseOfJoin(Paths.Dir(input), file);
    assert |file| == |Paths.Base(input)| + 6;
  }
}

=== FILE: lifecycle.dfy ===
/**
 * The post controller's single-post operations against an abstract store:
 * a map from id to post plus the set of stored file paths. Each operation
 * returns its result, the store afterwards and the paths the controller
 * itself passed to `fs.unlink`, in order; the image step's own deletion of
 * a raw upload shows in the files only. Clocks and generated ids are
 * parameters; whether a file deletion fails is given as the set of paths
 * whose deletion fails.
 */
module Lifecycle {
  import opened Wrappers
  import opened Strings
  import opened PostModel
  import Slug
  import Upload
  import ImageProcessor

  datatype Store = Store(posts: map<PostId, Post>, files: set<Path>)

  /** The unique index on `slug`. */
  predicate UniqueSlugs(posts: map<PostId, Post>) {
    forall i, j :: i in posts && j in posts && i != j ==> posts[i].slug != posts[j].slug
  }

  /** What every reachable store satisfies: posts are filed under their own
      id, pass the schema validators, and have distinct slugs. */
  predicate Valid(s: Store) {
    && (forall k :: k in s.posts ==> s.posts[k].id == k && ValidFields(s.posts[k]))
    && UniqueSlugs(s.posts)
  }

  /** The fields of a request body that reach the document store. */
  datatype PostFields = PostFields(
    title: Option<string>, content: Option<string>, excerpt: Option<string>,
    status: Option<string>, category: Option<string>, tags: Option<seq<string>>)

  /** The uploaded files of a request, one per media field. */
  datatype Uploads = Uploads(
    thumbnail: Option<Upload.Upload>, video: Option<Upload.Upload>, audio: Option<Upload.Upload>)

  datatype Field = TitleField | ContentField | ExcerptField | StatusField

  datatype PostError =
    | Invalid(fields: set<Field>)
    | DuplicateSlug
    | NotFound
    | ImageError(failure: ImageProcessor.ImageFailure)

  /** An operation's answer (a post, or empty data for a delete), the
      store after it, and the paths the controller passed to `fs.unlink`,
      in order. */
  datatype Outcome<T> = Outcome(result: Result<T, PostError>, store: Store, unlinked: seq<Path>)

  // ---------------------------------------------------------------------
  // Field validation and the stored form of fields

  /** The fields failing the schema validators, after the title's `trim`
      setter. On create `title` and `content` are required; on update only
      the fields given are checked. */
  function Violations(body: PostFields, creating: bool): (r: set<Field>)
    ensures TitleField !in r <==>
      (if body.title.Some? then Trim(body.title.value) != "" && |Trim(body.title.value)| <= MaxTitleLength
       else !creating)
    ensures ContentField !in r <==> (if body.content.Some? then body.content.value != "" else !creating)
    ensures ExcerptField !in r <==> body.excerpt.None? || |body.excerpt.value| <= MaxExcerptLength
    ensures StatusField !in r <==> body.status.None? || ParseStatus(body.status.value).Some?
  {
    var title := match body.title
      case None => if creating then {TitleField} else {}
      case Some(t) => if Trim(t) == "" || |Trim(t)| > MaxTitleLength then {TitleField} else {};
    var content := match body.content
      case None => if creating then {ContentField} else {}
      case Some(c) => if c == "" then {ContentField} else {};
    var excerpt := if body.excerpt.Some? && |body.excerpt.value| > MaxExcerptLength then {ExcerptField} else {};
    var status := if body.status.Some? && ParseStatus(body.status.value).None? then {StatusField} else {};
    title + content + excerpt + status
  }

  /** The `trim` setter on each tag. */
  function TrimAll(tags: seq<string>): (r: seq<string>)
    ensures |r| == |tags|
    ensures forall k :: 0 <= k < |r| ==> r[k] == Trim(tags[k]) && IsTrimmed(r[k])
  {
    seq(|tags|, k requires 0 <= k < |tags| => (TrimIsTrimmed(tags[k]); Trim(tags[k])))
  }

  function TrimOption(s: Option<string>): (r: Option<string>)
    ensures r.Some? <==> s.Some?
    ensures r.Some? ==> r.value == Trim(s.value) && IsTrimmed(r.value)
  {
    match s
    case None => None
    case Some(v) => TrimIsTrimmed(v); Some(Trim(v))
  }

  /** The stored reference for a video or audio upload: the upload's own
      metadata. */
  function MediaFrom(u: Upload.Upload): MediaRef {
    MediaRef(u.filename, u.path, u.mimetype, u.size)
  }

  function MediaOf(u: Option<Upload.Upload>): Option<MediaRef> {
    match u
    case None => None
    case Some(v) => Some(MediaFrom(v))
  }

  /** The stored thumbnail reference: file name and MIME type from the
      upload, path and size from the processed output. */
  function ThumbnailRef(u: Upload.Upload, p: ImageProcessor.Processed): MediaRef {
    MediaRef(u.filename, p.path, u.mimetype, p.size)
  }

  /** The image step run on an upload with its default options. */
  function ProcessUpload(files: set<Path>, u: Upload.Upload, env: ImageProcessor.ImageEnv)
    : ImageProcessor.ImageRun<ImageProcessor.Processed>
  {
    ImageProcessor.ProcessImage(files, u.path, ImageProcessor.ImageOptions(None, None, None), env)
  }

  /** Runs the thumbnail upload, when there is one, through the image step. */
  function PrepareThumbnail(files: set<Path>, upload: Option<Upload.Upload>, env: ImageProcessor.ImageEnv)
    : (r: ImageProcessor.ImageRun<Option<MediaRef>>)
    ensures upload.None? ==> r == ImageProcessor.ImageRun(Ok(None), files)
    ensures upload.Some? ==> r.files == ProcessUpload(files, upload.value, env).files
    ensures upload.Some? ==> (r.result.Ok? <==> ProcessUpload(files, upload.value, env).result.Ok?)
    ensures upload.Some? && r.result.Ok? ==>
      r.result.value == Some(ThumbnailRef(upload.value, ProcessUpload(files, upload.value, env).result.value))
    ensures upload.Some? && r.result.Err? ==> r.result.error == ProcessUpload(files, upload.value, env).result.error
  {
    match upload
    case None => ImageProcessor.ImageRun(Ok(None), files)
    case Some(u) =>
      var run := ProcessUpload(files, u, env);
      match run.result
      case Err(e) => ImageProcessor.ImageRun(Err(e), run.files)
      case Ok(p) => ImageProcessor.ImageRun(Ok(Some(ThumbnailRef(u, p))), run.files)
  }

  // ---------------------------------------------------------------------
  // Files

  /** `fs.unlink`, whose failure is caught and logged. */
  function Unlink(files: set<Path>, p: Path, failing: set<Path>): set<Path> {
    if p in failing then files else files - {p}
  }

  /** Deletes the paths one after another; a failure does not stop the rest. */
  function UnlinkAll(files: set<Path>, paths: seq<Path>, failing: set<Path>): (r: set<Path>)
    ensures r == files - (set k | 0 <= k < |paths| && paths[k] !in failing :: paths[k])
    decreases |paths|
  {
    if |paths| == 0 then files
    else UnlinkAll(Unlink(files, paths[0], failing), paths[1..], failing)
  }

  /** The present media paths of a post, in the order thumbnail, video, audio. */
  function MediaPaths(p: Post): (r: seq<Path>)
    ensures forall q :: q in r <==> Some(q) in {PathOf(p.thumbnail), PathOf(p.video), PathOf(p.audio)}
    ensures |r| <= 3
  {
    (match PathOf(p.thumbnail) case Some(q) => [q] case None => [])
    + (match PathOf(p.video) case Some(q) => [q] case None => [])
    + (match PathOf(p.audio) case Some(q) => [q] case None => [])
  }

  // ---------------------------------------------------------------------
  // Reads

  predicate SlugTaken(posts: map<PostId, Post>, slug: string) {
    exists k :: k in posts && posts[k].slug == slug
  }

  /** `findOne({ slug })`; the unique index makes the match unique. */
  function FindBySlug(posts: map<PostId, Post>, slug: string): (r: Option<PostId>)
    requires UniqueSlugs(posts)
    ensures r.Some? <==> SlugTaken(posts, slug)
    ensures r.Some? ==> r.value in posts && posts[r.value].slug == slug
  {
    if SlugTaken(posts, slug) then
      var k :| k in posts && posts[k].slug == slug;
      Some(k)
    else None
  }

  /** `getPost`: the stored post by id, with no change to anything. */
  function GetPost(s: Store, id: PostId): (r: Result<Post, PostError>)
    ensures r.Ok? <==> id in s.posts
    ensures r.Ok? ==> r.value == s.posts[id]
    ensures r.Err? ==> r.error == NotFound
  {
    if id in s.posts then Ok(s.posts[id]) else Err(NotFound)
  }

  /** `getPostBySlug`: finds the post, adds one to its views and saves it.
      The save runs the hooks, which leave the slug and the publication date
      alone but refresh `updatedAt`. */
  function ViewBySlug(s: Store, slug: string, now: Time): (r: Outcome<Post>)
    requires UniqueSlugs(s.posts)
    ensures !SlugTaken(s.posts, slug) ==> r == Outcome(Err(NotFound), s, [])
    ensures SlugTaken(s.posts, slug) ==> (
      && r.result.Ok?
      && var k := FindBySlug(s.posts, slug).value;
      && r.result.value == s.posts[k].(views := s.posts[k].views + 1, updatedAt := now)
      && r.store == s.(posts := s.posts[k := r.result.value]))
    ensures r.unlinked == []
  {
    match FindBySlug(s.posts, slug)
    case None => Outcome(Err(NotFound), s, [])
    case Some(k) =>
      var post := s.posts[k];
      var saved := RunSaveHooks(post.(views := post.views + 1), false, false, now);
      Outcome(Ok(saved), s.(posts := s.posts[k := saved]), [])
  }

  // ---------------------------------------------------------------------
  // Create

  /** The new document built from the body: the title trimmed, the status
      parsed or defaulted to draft, views 0, tags and category trimmed. */
  function NewDocument(body: PostFields, author: string, id: PostId, now: Time,
                       thumbnail: Option<MediaRef>, uploads: Uploads): (r: Post)
    requires Violations(body, true) == {}
    ensures ValidFields(r)
  {
    Post(
      id := id,
      title := Trim(body.title.value),
      slug := "",
      content := body.content.value,
      excerpt := body.excerpt,
      author := author,
      status := if body.status.Some? then ParseStatus(body.status.value).value else Draft,
      thumbnail := thumbnail,
      video := MediaOf(uploads.video),
      audio := MediaOf(uploads.audio),
      tags := TrimAll(body.tags.GetOr([])),
      category := TrimOption(body.category),
      views := 0,
      publishedAt := None,
      createdAt := now,
      updatedAt := now)
  }

  /** What the save hooks make of a new document. */
  lemma SavedNewDocument(body: PostFields, author: string, id: PostId, now: Time,
                         thumbnail: Option<MediaRef>, uploads: Uploads)
    requires Violations(body, true) == {}
    ensures var p := RunSaveHooks(NewDocument(body, author, id, now, thumbnail, uploads), true, body.status.Some?, now);
      && p.id == id && p.author == author && p.views == 0
      && p.title == Trim(body.title.value) && p.slug == Slug.Slugify(p.title)
      && p.status == (if body.status == Some("published") then Published else Draft)
      && (p.publishedAt.Some? <==> p.status == Published)
      && (p.publishedAt.Some? ==> p.publishedAt.value == now)
      && p.content == body.content.value && p.excerpt == body.excerpt
      && p.category == TrimOption(body.category) && p.tags == TrimAll(body.tags.GetOr([]))
      && p.thumbnail == thumbnail
      && p.video == MediaOf(uploads.video) && p.audio == MediaOf(uploads.audio)
      && p.createdAt == now && p.updatedAt == now
  {
    var doc := NewDocument(body, author, id, now, thumbnail, uploads);
    assert doc.publishedAt.None?;
    if body.status.Some? {
      var st := ParseStatus(body.status.value);
      assert st.Some?;
      assert doc.status == st.value;
    }
  }

  /** `createPost`: the author is always the authenticated user; the
      thumbnail goes through the image step first; the document is validated,
      the save hooks derive its slug and publication date, and the unique
      index refuses a slug already in use. */
  function CreatePost(s: Store, body: PostFields, user: string, uploads: Uploads,
                      newId: PostId, now: Time, env: ImageProcessor.ImageEnv): (r: Outcome<Post>)
    requires newId !in s.posts
    ensures r.unlinked == []
    ensures var image := PrepareThumbnail(s.files, uploads.thumbnail, env);
      && r.store.files == image.files
      && (image.result.Err? ==> r.result == Err(ImageError(image.result.error)))
      && (image.result.Ok? && Violations(body, true) != {} ==> r.result == Err(Invalid(Violations(body, true))))
      && (image.result.Ok? && Violations(body, true) == {} ==>
            && (r.result.Ok? <==> !SlugTaken(s.posts, Slug.Slugify(Trim(body.title.value))))
            && (r.result.Err? ==> r.result.error == DuplicateSlug))
    ensures r.result.Err? ==> r.store.posts == s.posts
    ensures r.result.Ok? ==> (
      var p := r.result.value;
      && Violations(body, true) == {}
      && p.id == newId && p.author == user && p.views == 0
      && p.title == Trim(body.title.value) && p.slug == Slug.Slugify(p.title)
      && p.content == body.content.value && p.excerpt == body.excerpt
      && p.category == TrimOption(body.category) && p.tags == TrimAll(body.tags.GetOr([]))
      && p.status == (if body.status == Some("published") then Published else Draft)
      && (p.publishedAt.Some? <==> p.status == Published)
      && (p.publishedAt.Some? ==> p.publishedAt.value == now)
      && p.createdAt == now && p.updatedAt == now
      && p.thumbnail == PrepareThumbnail(s.files, uploads.thumbnail, env).result.value
      && p.video == MediaOf(uploads.video) && p.audio == MediaOf(uploads.audio)
      && !SlugTaken(s.posts, p.slug)
      && r.store.posts == s.posts[newId := p])
  {
    var thumb := PrepareThumbnail(s.files, uploads.thumbnail, env);
    match thumb.result
    case Err(e) => Outcome(Err(ImageError(e)), s.(files := thumb.files), [])
    case Ok(thumbnail) =>
      var afterImage := s.(files := thumb.files);
      var violations := Violations(body, true);
      if violations != {} then Outcome(Err(Invalid(violations)), afterImage, [])
      else
        var doc := NewDocument(body, user, newId, now, thumbnail, uploads);
        SavedNewDocument(body, user, newId, now, thumbnail, uploads);
        var saved := RunSaveHooks(doc, true, body.status.Some?, now);
        if SlugTaken(s.posts, saved.slug) then Outcome(Err(DuplicateSlug), afterImage, [])
        else Outcome(Ok(saved), afterImage.(posts := s.posts[newId := saved]), [])
  }

  // ---------------------------------------------------------------------
  // Update

  /** The document as `findByIdAndUpdate` leaves it: the given fields are
      set (with their setters applied) and the media slots replaced. No save
      hook runs, so slug, `updatedAt` and `publishedAt` keep their values. */
  function ApplyUpdate(post: Post, body: PostFields, thumbnail: Option<MediaRef>,
                       video: Option<MediaRef>, audio: Option<MediaRef>): (r: Post)
    requires Violations(body, false) == {}
    ensures r.thumbnail == thumbnail && r.video == video && r.audio == audio
    ensures r.id == post.id && r.author == post.author && r.views == post.views && r.slug == post.slug
    ensures r.publishedAt == post.publishedAt && r.createdAt == post.createdAt && r.updatedAt == post.updatedAt
    ensures r.title == (if body.title.Some? then Trim(body.title.value) else post.title)
    ensures r.content == body.content.GetOr(post.content)
    ensures r.excerpt == (if body.excerpt.Some? then body.excerpt else post.excerpt)
    ensures body.status.Some? ==> Some(r.status) == ParseStatus(body.status.value)
    ensures body.status.None? ==> r.status == post.status
    ensures r.category == (if body.category.Some? then TrimOption(body.category) else post.category)
    ensures r.tags == (if body.tags.Some? then TrimAll(body.tags.value) else post.tags)
  {
    var title := if body.title.Some? then TrimIsTrimmed(body.title.value); Trim(body.title.value) else post.title;
    var content := body.content.GetOr(post.content);
    var excerpt := if body.excerpt.Some? then body.excerpt else post.excerpt;
    var category := if body.category.Some? then TrimOption(body.category) else post.category;
    var tags := if body.tags.Some? then TrimAll(body.tags.value) else post.tags;
    var r := post.(
      title := title, content := content, excerpt := excerpt,
      status := if body.status.Some? then ParseStatus(body.status.value).value else post.status,
      category := category, tags := tags,
      thumbnail := thumbnail, video := video, audio := audio);
    r
  }

  /** The validators let through only fields that keep a valid document
      valid. */
  lemma ApplyUpdateKeepsValid(post: Post, body: PostFields, thumbnail: Option<MediaRef>,
                              video: Option<MediaRef>, audio: Option<MediaRef>)
    requires Violations(body, false) == {}
    requires ValidFields(post)
    ensures ValidFields(ApplyUpdate(post, body, thumbnail, video, audio))
  {
    var r := ApplyUpdate(post, body, thumbnail, video, audio);
    if body.title.Some? {
      TrimIsTrimmed(body.title.value);
    }
    assert r.title != "" && |r.title| <= MaxTitleLength && IsTrimmed(r.title);
    assert r.excerpt.Some? ==> |r.excerpt.value| <= MaxExcerptLength;
  }

  /** The deletion an update asks for on one slot: the previous path, when
      the slot receives an upload and had a path. */
  function Attempted(previous: Option<MediaRef>, upload: Option<Upload.Upload>): (r: seq<Path>)
    ensures |r| <= 1
    ensures r != [] <==> upload.Some? && PathOf(previous).Some?
    ensures r != [] ==> r[0] == PathOf(previous).value
  {
    if upload.Some? && PathOf(previous).Some? then [PathOf(previous).value] else []
  }

  /** A video or audio slot after an update: the upload's reference when
      one arrived, the previous one otherwise. */
  function Slot(previous: Option<MediaRef>, upload: Option<Upload.Upload>): Option<MediaRef> {
    if upload.Some? then MediaOf(upload) else previous
  }

  /** The thumbnail step of an update: the old thumbnail is deleted when a
      new one arrived, then the new one goes through the image step. */
  function ImageStage(files: set<Path>, post: Post, upload: Option<Upload.Upload>,
                      env: ImageProcessor.ImageEnv, failing: set<Path>)
    : ImageProcessor.ImageRun<Option<MediaRef>>
  {
    PrepareThumbnail(UnlinkAll(files, Attempted(post.thumbnail, upload), failing), upload, env)
  }

  /** `updatePost`: for each slot that received an upload the old file is
      deleted first (a failure is only logged), then the new reference is
      attached; the thumbnail goes through the image step, whose failure
      aborts the update after the old thumbnail is already gone. The other
      slots keep their references. The validators then check the fields
      given, and the document is written without the save hooks. */
  function UpdatePost(s: Store, id: PostId, body: PostFields, uploads: Uploads,
                      env: ImageProcessor.ImageEnv, failing: set<Path>): (r: Outcome<Post>)
    ensures id !in s.posts ==> r == Outcome(Err(NotFound), s, [])
    ensures id in s.posts ==>
      var q := s.posts[id];
      var image := ImageStage(s.files, q, uploads.thumbnail, env, failing);
      var media := Attempted(q.video, uploads.video) + Attempted(q.audio, uploads.audio);
      && (r.result.Ok? <==> image.result.Ok? && Violations(body, false) == {})
      && (image.result.Err? ==>
            && r.result == Err(ImageError(image.result.error))
            && r.unlinked == Attempted(q.thumbnail, uploads.thumbnail)
            && r.store.files == image.files)
      && (image.result.Ok? ==>
            && r.unlinked == Attempted(q.thumbnail, uploads.thumbnail) + media
            && r.store.files == UnlinkAll(image.files, media, failing))
      && (image.result.Ok? && Violations(body, false) != {} ==>
            r.result == Err(Invalid(Violations(body, false))))
      && (r.result.Ok? ==>
            r.result.value == ApplyUpdate(q, body,
              if uploads.thumbnail.Some? then image.result.value else q.thumbnail,
              Slot(q.video, uploads.video), Slot(q.audio, uploads.audio)))
    ensures r.result.Err? ==> r.store.posts == s.posts
    ensures r.result.Ok? ==> id in s.posts && r.store.posts == s.posts[id := r.result.value]
  {
    if id !in s.posts then Outcome(Err(NotFound), s, [])
    else
      var post := s.posts[id];
      var cleared := Attempted(post.thumbnail, uploads.thumbnail);
      var thumb := PrepareThumbnail(UnlinkAll(s.files, cleared, failing), uploads.thumbnail, env);
      match thumb.result
      case Err(e) => Outcome(Err(ImageError(e)), s.(files := thumb.files), cleared)
      case Ok(newThumbnail) =>
        var thumbnail := if uploads.thumbnail.Some? then newThumbnail else post.thumbnail;
        var media := Attempted(post.video, uploads.video) + Attempted(post.audio, uploads.audio);
        var files := UnlinkAll(thumb.files, media, failing);
        var violations := Violations(body, false);
        if violations != {} then Outcome(Err(Invalid(violations)), s.(files := files), cleared + media)
        else
          var updated := ApplyUpdate(post, body, thumbnail, Slot(post.video, uploads.video), Slot(post.audio, uploads.audio));
          Outcome(Ok(updated), Store(s.posts[id := updated], files), cleared + media)
  }

  // ---------------------------------------------------------------------
  // Delete

  /** `deletePost`: deletes every present media file in the order thumbnail,
      video, audio, each failure only logged, then removes the record and
      answers with empty data. */
  function DeletePost(s: Store, id: PostId, failing: set<Path>): (r: Outcome<()>)
    ensures id !in s.posts ==> r == Outcome(Err(NotFound), s, [])
    ensures id in s.posts ==> (
      && r.result == Ok(())
      && r.unlinked == MediaPaths(s.posts[id])
      && r.store.posts == s.posts - {id}
      && r.store.files == s.files - (set q | q in r.unlinked && q !in failing))
  {
    if id !in s.posts then Outcome(Err(NotFound), s, [])
    else
      var post := s.posts[id];
      var paths := MediaPaths(post);
      var files := UnlinkAll(s.files, paths, failing);
      assert (set q | q in paths && q !in failing) == (set k | 0 <= k < |paths| && paths[k] !in failing :: paths[k]);
      Outcome(Ok(()), Store(s.posts - {id}, files), paths)
  }

  // ---------------------------------------------------------------------
  // Properties

  /** Creating a post keeps the store valid: the new post passes the
      validators and the unique index kept its slug unique. */
  lemma CreatePreservesValid(s: Store, body: PostFields, user: string, uploads: Uploads,
                             newId: PostId, now: Time, env: ImageProcessor.ImageEnv)
    requires Valid(s) && newId !in s.posts
    ensures Valid(CreatePost(s, body, user, uploads, newId, now, env).store)
  {
    var r := CreatePost(s, body, user, uploads, newId, now, env);
    if r.result.Ok? {
      var thumb := PrepareThumbnail(s.files, uploads.thumbnail, env);
      var doc := NewDocument(body, user, newId, now, thumb.result.value, uploads);
      var saved := RunSaveHooks(doc, true, body.status.Some?, now);
      assert saved.(slug := doc.slug, updatedAt := doc.updatedAt, publishedAt := doc.publishedAt) == doc;
      assert saved.title == doc.title && saved.content == doc.content && saved.excerpt == doc.excerpt;
      assert saved.category == doc.category && saved.tags == doc.tags;
      assert r.result.value == saved;
      InsertKeepsValid(s, newId, saved, r.store.files);
    }
  }

  /** Filing a valid post under its own, unused id with an unused slug keeps
      the store valid. */
  lemma InsertKeepsValid(s: Store, id: PostId, p: Post, files: set<Path>)
    requires Valid(s) && id !in s.posts && p.id == id && ValidFields(p) && !SlugTaken(s.posts, p.slug)
    ensures Valid(Store(s.posts[id := p], files))
  {
    var posts := s.posts[id := p];
    forall i, j | i in posts && j in posts && i != j
      ensures posts[i].slug != posts[j].slug
    {
      if i == id {
        assert j in s.posts;
      } else if j == id {
        assert i in s.posts;
      }
    }
  }

  /** Updating keeps the store valid: the validators check the fields given
      and the slug does not change. */
  lemma UpdatePreservesValid(s: Store, id: PostId, body: PostFields, uploads: Uploads,
                             env: ImageProcessor.ImageEnv, failing: set<Path>)
    requires Valid(s)
    ensures Valid(UpdatePost(s, id, body, uploads, env, failing).store)
  {
    var r := UpdatePost(s, id, body, uploads, env, failing);
    if r.result.Ok? {
      var q := s.posts[id];
      var p := r.result.value;
      var image := ImageStage(s.files, q, uploads.thumbnail, env, failing);
      var thumbnail := if uploads.thumbnail.Some? then image.result.value else q.thumbnail;
      assert p == ApplyUpdate(q, body, thumbnail, Slot(q.video, uploads.video), Slot(q.audio, uploads.audio));
      ApplyUpdateKeepsValid(q, body, thumbnail, Slot(q.video, uploads.video), Slot(q.audio, uploads.audio));
      ReplaceKeepsValid(s, id, p, r.store.files);
    }
  }

  /** Refiling a post under its id with a valid document and the same slug
      keeps the store valid. */
  lemma ReplaceKeepsValid(s: Store, id: PostId, p: Post, files: set<Path>)
    requires Valid(s) && id in s.posts && p.id == id && ValidFields(p) && p.slug == s.posts[id].slug
    ensures Valid(Store(s.posts[id := p], files))
  {
    var posts := s.posts[id := p];
    forall i, j | i in posts && j in posts && i != j
      ensures posts[i].slug != posts[j].slug
    {
      assert posts[i].slug == s.posts[i].slug && posts[j].slug == s.posts[j].slug;
    }
  }

  /** A view keeps the store valid. */
  lemma ViewPreservesValid(s: Store, slug: string, now: Time)
    requires Valid(s)
    ensures Valid(ViewBySlug(s, slug, now).store)
  {
  }

  /** Deleting keeps the store valid. */
  lemma DeletePreservesValid(s: Store, id: PostId, failing: set<Path>)
    requires Valid(s)
    ensures Valid(DeletePost(s, id, failing).store)
  {
  }

  /** The created thumbnail mixes its sources: file name and MIME type from
      the raw upload, path and size from the optimised output; the raw
      upload is gone from storage. Video and audio keep the upload's
      metadata as it came. */
  lemma CreateThumbnailMetadata(s: Store, body: PostFields, user: string, uploads: Uploads,
                                newId: PostId, now: Time, env: ImageProcessor.ImageEnv)
    requires newId !in s.posts && uploads.thumbnail.Some?
    requires CreatePost(s, body, user, uploads, newId, now, env).result.Ok?
    ensures var r := CreatePost(s, body, user, uploads, newId, now, env);
      var u := uploads.thumbnail.value;
      && r.result.value.thumbnail
         == Some(MediaRef(u.filename, ImageProcessor.OptimizedPath(u.path, "jpeg"), u.mimetype, env.written.value))
      && u.path !in r.store.files
      && ImageProcessor.OptimizedPath(u.path, "jpeg") in r.store.files
  {
    var u := uploads.thumbnail.value;
    var run := ProcessUpload(s.files, u, env);
    assert run.result.Ok?;
    ImageProcessor.DefaultRunSucceeds(s.files, u.path, env);
    ImageProcessor.ProcessImageReplacesOriginal(s.files, u.path, env);
  }

  /** An update goes through `findByIdAndUpdate`, which runs no save hook:
      slug, `updatedAt` and `publishedAt` keep their stored values, as do
      id, author, views and `createdAt`, even when the title or status
      changes. */
  lemma UpdateSkipsSaveHooks(s: Store, id: PostId, body: PostFields, uploads: Uploads,
                             env: ImageProcessor.ImageEnv, failing: set<Path>)
    requires UpdatePost(s, id, body, uploads, env, failing).result.Ok?
    ensures var p := UpdatePost(s, id, body, uploads, env, failing).result.value;
      var q := s.posts[id];
      && p.id == q.id && p.author == q.author && p.views == q.views
      && p.slug == q.slug && p.updatedAt == q.updatedAt && p.publishedAt == q.publishedAt
      && p.createdAt == q.createdAt
      && (body.title.Some? ==> p.title == Trim(body.title.value))
      && (body.status.Some? ==> StatusName(p.status) == body.status.value)
  {
  }

  /** Publishing a draft through an update leaves it without a publication
      date, since the hook that sets it does not run. */
  lemma UpdatePublishLeavesNoDate(s: Store, id: PostId, env: ImageProcessor.ImageEnv, failing: set<Path>)
    requires id in s.posts && s.posts[id].status == Draft && s.posts[id].publishedAt.None?
    ensures var body := PostFields(None, None, None, Some("published"), None, None);
      var r := UpdatePost(s, id, body, Uploads(None, None, None), env, failing);
      && r.result.Ok?
      && r.result.value.status == Published
      && r.result.value.publishedAt.None?
      && r.unlinked == []
      && r.store.files == s.files
  {
    var body := PostFields(None, None, None, Some("published"), None, None);
    assert Violations(body, false) == {};
  }

  /** In a successful update each slot that received an upload had its
      previous file deleted first, in the order thumbnail, video, audio, and
      now holds the new reference; a slot without an upload keeps its
      reference and its file. */
  lemma UpdateReplacesUploadedSlots(s: Store, id: PostId, body: PostFields, uploads: Uploads,
                                    env: ImageProcessor.ImageEnv, failing: set<Path>)
    requires UpdatePost(s, id, body, uploads, env, failing).result.Ok?
    ensures var r := UpdatePost(s, id, body, uploads, env, failing);
      var q := s.posts[id];
      var p := r.result.value;
      && r.unlinked == Attempted(q.thumbnail, uploads.thumbnail) + Attempted(q.video, uploads.video)
                       + Attempted(q.audio, uploads.audio)
      && (uploads.thumbnail.None? ==> p.thumbnail == q.thumbnail)
      && (uploads.video.None? ==> p.video == q.video)
      && (uploads.audio.None? ==> p.audio == q.audio)
      && (uploads.thumbnail.Some? ==> p.thumbnail.Some? && p.thumbnail.value.filename == uploads.thumbnail.value.filename)
      && (uploads.video.Some? ==> p.video == MediaOf(uploads.video))
      && (uploads.audio.Some? ==> p.audio == MediaOf(uploads.audio))
  {
  }

  /** An update without uploads deletes nothing and leaves the files alone. */
  lemma UpdateWithoutUploadsKeepsFiles(s: Store, id: PostId, body: PostFields,
                                       env: ImageProcessor.ImageEnv, failing: set<Path>)
    ensures var r := UpdatePost(s, id, body, Uploads(None, None, None), env, failing);
      r.unlinked == [] && r.store.files == s.files
  {
  }

  /** The update is not transactional: the old thumbnail is deleted before
      the new image is processed, so when processing fails the update is
      refused, the record still points at the old thumbnail, and that file
      is gone. */
  lemma UpdateImageFailureLeavesDanglingThumbnail(s: Store, id: PostId, body: PostFields, uploads: Uploads,
                                                  env: ImageProcessor.ImageEnv, failing: set<Path>)
    requires id in s.posts && uploads.thumbnail.Some?
    requires PathOf(s.posts[id].thumbnail).Some? && PathOf(s.posts[id].thumbnail).value !in failing
    requires env.written.None?
    ensures var r := UpdatePost(s, id, body, uploads, env, failing);
      && r.result.Err? && r.result.error.ImageError?
      && r.store.posts[id].thumbnail == s.posts[id].thumbnail
      && PathOf(s.posts[id].thumbnail).value !in r.store.files
      && r.unlinked == [PathOf(s.posts[id].thumbnail).value]
  {
    var gone := PathOf(s.posts[id].thumbnail).value;
    var u := uploads.thumbnail.value;
    var files1 := UnlinkAll(s.files, [gone], failing);
    assert gone !in files1;
  }

  /** A create succeeds exactly when the fields pass the validators, a
      thumbnail (if any) is on disk and goes through the image step with
      its original deleted, and the derived slug is not yet taken. */
  lemma CreateSucceedsIff(s: Store, body: PostFields, user: string, uploads: Uploads,
                          newId: PostId, now: Time, env: ImageProcessor.ImageEnv)
    requires newId !in s.posts
    ensures CreatePost(s, body, user, uploads, newId, now, env).result.Ok? <==>
      && Violations(body, true) == {}
      && (uploads.thumbnail.Some? ==>
            uploads.thumbnail.value.path in s.files && env.written.Some? && env.unlinkOk)
      && !SlugTaken(s.posts, Slug.Slugify(Trim(body.title.value)))
  {
    if uploads.thumbnail.Some? {
      ImageProcessor.DefaultRunSucceeds(s.files, uploads.thumbnail.value.path, env);
    }
  }

  /** An update of a stored post succeeds exactly when the given fields
      pass the validators and a new thumbnail (if any) is still on disk
      after the old one's deletion and goes through the image step with its
      original deleted. */
  lemma UpdateSucceedsIff(s: Store, id: PostId, body: PostFields, uploads: Uploads,
                          env: ImageProcessor.ImageEnv, failing: set<Path>)
    ensures UpdatePost(s, id, body, uploads, env, failing).result.Ok? <==>
      && id in s.posts
      && Violations(body, false) == {}
      && (uploads.thumbnail.Some? ==>
            && uploads.thumbnail.value.path
               in UnlinkAll(s.files, Attempted(s.posts[id].thumbnail, uploads.thumbnail), failing)
            && env.written.Some? && env.unlinkOk)
  {
    if id in s.posts && uploads.thumbnail.Some? {
      var files := UnlinkAll(s.files, Attempted(s.posts[id].thumbnail, uploads.thumbnail), failing);
      ImageProcessor.DefaultRunSucceeds(files, uploads.thumbnail.value.path, env);
    }
  }
}

=== FILE: listing.dfy ===
/**
 * The public listing, `getPosts`: filter the stored posts by the query,
 * sort them by publication date (latest first), cut out one page, and
 * report the pagination figures.
 */
module Listing {
  import opened Wrappers
  import opened Strings
  import opened PostModel

  const DefaultPage := 1
  const DefaultLimit := 10
  const DefaultStatus := "published"

  /** The query string, with `page` and `limit` already read as numbers. */
  datatype Query = Query(
    page: Option<int>, limit: Option<int>, status: Option<string>,
    category: Option<string>, tag: Option<string>, search: Option<string>)

  datatype Pagination = Pagination(page: int, limit: int, total: nat, pages: Option<int>)

  datatype Page = Page(data: seq<Post>, pagination: Pagination)

  /** The one way the listing fails: the database refuses a negative skip. */
  datatype ListError = NegativeSkip(skip: int)

  function PageOf(q: Query): int { q.page.GetOr(DefaultPage) }

  function LimitOf(q: Query): int { q.limit.GetOr(DefaultLimit) }

  /** `(page - 1) * limit`, the number of posts passed over. */
  function SkipOf(q: Query): int { (PageOf(q) - 1) * LimitOf(q) }

  /** A filter value JavaScript treats as true: present and non-empty. */
  predicate Given(v: Option<string>) {
    v.Some? && v.value != ""
  }

  /** The query document: the status always (default "published"), the
      category and tag only when given, and the search, case-insensitively,
      against title or content. */
  predicate Matches(p: Post, q: Query) {
    && StatusName(p.status) == q.status.GetOr(DefaultStatus)
    && (Given(q.category) ==> p.category == Some(q.category.value))
    && (Given(q.tag) ==> q.tag.value in p.tags)
    && (Given(q.search) ==>
          ContainsIgnoringCase(p.title, q.search.value) || ContainsIgnoringCase(p.content, q.search.value))
  }

  function MatchingIds(posts: map<PostId, Post>, q: Query): set<PostId> {
    set k | k in posts && Matches(posts[k], q)
  }

  // ---------------------------------------------------------------------
  // The order `sort({ publishedAt: -1 })`

  /** Whether the post under key `a`, published at `x`, comes before the one
      under `b`, published at `y`: later dates first, undated posts last,
      equal dates by ascending id. */
  predicate Before(x: Option<Time>, a: PostId, y: Option<Time>, b: PostId) {
    match (x, y)
    case (Some(t), Some(u)) => t > u || (t == u && a < b)
    case (Some(_), None) => true
    case (None, Some(_)) => false
    case (None, None) => a < b
  }

  predicate Precedes(posts: map<PostId, Post>, a: PostId, b: PostId) {
    a in posts && b in posts && Before(posts[a].publishedAt, a, posts[b].publishedAt, b)
  }

  /** `Precedes` is a strict total order on the stored keys. */
  lemma PrecedesIsStrictTotal(posts: map<PostId, Post>, a: PostId, b: PostId, c: PostId)
    ensures !Precedes(posts, a, a)
    ensures Precedes(posts, a, b) ==> !Precedes(posts, b, a)
    ensures Precedes(posts, a, b) && Precedes(posts, b, c) ==> Precedes(posts, a, c)
    ensures a in posts && b in posts && a != b ==> Precedes(posts, a, b) || Precedes(posts, b, a)
  {
  }

  /** Stored keys in strictly increasing `Precedes` order. */
  predicate Sorted(posts: map<PostId, Post>, s: seq<PostId>) {
    && (forall i :: 0 <= i < |s| ==> s[i] in posts)
    && (forall i, j :: 0 <= i < j < |s| ==> Precedes(posts, s[i], s[j]))
  }

  /** A ranking: exactly the matching keys, in order. */
  predicate IsRanking(posts: map<PostId, Post>, q: Query, s: seq<PostId>) {
    && Sorted(posts, s)
    && (forall k :: k in s ==> k in MatchingIds(posts, q))
    && (forall k :: k in MatchingIds(posts, q) ==> k in s)
  }

  /** Inserts a key into a sorted sequence of keys. */
  function Insert(posts: map<PostId, Post>, s: seq<PostId>, k: PostId): (r: seq<PostId>)
    requires k in posts && k !in s && Sorted(posts, s)
    ensures Sorted(posts, r)
    ensures forall x :: x in r <==> x == k || x in s
    ensures |r| == |s| + 1
  {
    if s == [] then [k]
    else if Precedes(posts, k, s[0]) then
      assert forall j :: 0 < j < |s| ==> Precedes(posts, k, s[j]) by {
        forall j | 0 < j < |s| ensures Precedes(posts, k, s[j]) {
          PrecedesIsStrictTotal(posts, k, s[0], s[j]);
        }
      }
      [k] + s
    else
      var rest := Insert(posts, s[1..], k);
      assert Sorted(posts, s[1..]);
      PrecedesIsStrictTotal(posts, k, s[0], k);
      assert Precedes(posts, s[0], k);
      assert forall j :: 0 <= j < |rest| ==> Precedes(posts, s[0], rest[j]) by {
        forall j | 0 <= j < |rest| ensures Precedes(posts, s[0], rest[j]) {
          assert rest[j] in rest;
          if rest[j] != k {
            assert rest[j] in s[1..];
          }
        }
      }
      [s[0]] + rest
  }

  /** The ranking of a set of keys, built by insertion in any order. */
  ghost function RankOf(posts: map<PostId, Post>, ks: set<PostId>): (r: seq<PostId>)
    requires ks <= posts.Keys
    ensures Sorted(posts, r)
    ensures forall x :: x in r <==> x in ks
    decreases ks
  {
    if ks == {} then []
    else
      var k :| k in ks;
      Insert(posts, RankOf(posts, ks - {k}), k)
  }

  /** The ranking of the matching posts. */
  ghost function Ranked(posts: map<PostId, Post>, q: Query): (r: seq<PostId>)
    ensures IsRanking(posts, q, r)
  {
    RankOf(posts, MatchingIds(posts, q))
  }

  /** Two sorted sequences holding the same keys are equal: the order
      leaves no freedom, so there is exactly one ranking. */
  lemma {:induction false} SortedUnique(posts: map<PostId, Post>, a: seq<PostId>, b: seq<PostId>)
    requires Sorted(posts, a) && Sorted(posts, b)
    requires forall x :: x in a <==> x in b
    ensures a == b
    decreases |a|
  {
    if a == [] {
      assert forall k :: 0 <= k < |b| ==> b[k] in a;
      assert |b| == 0;
    } else {
      assert a[0] in a;
      assert b != [];
      assert b[0] in b;
      PrecedesIsStrictTotal(posts, a[0], b[0], a[0]);
      assert a[0] == b[0];
      forall x
        ensures x in a[1..] <==> x in b[1..]
      {
        if x in a[1..] {
          var i :| 1 <= i < |a| && a[i] == x;
          PrecedesIsStrictTotal(posts, a[0], a[0], a[0]);
          assert x != a[0];
          assert x in b;
        }
        if x in b[1..] {
          var j :| 1 <= j < |b| && b[j] == x;
          PrecedesIsStrictTotal(posts, b[0], b[0], b[0]);
          assert x != b[0];
          assert x in a;
        }
      }
      assert Sorted(posts, a[1..]) && Sorted(posts, b[1..]);
      SortedUnique(posts, a[1..], b[1..]);
      assert a == [a[0]] + a[1..] && b == [b[0]] + b[1..];
    }
  }

  /** A sorted sequence has no repeated key, so it is as long as the set
      of its keys is large. */
  lemma {:induction false} SortedCount(posts: map<PostId, Post>, s: seq<PostId>, ks: set<PostId>)
    requires Sorted(posts, s)
    requires forall x :: x in s <==> x in ks
    ensures |s| == |ks|
    decreases |s|
  {
    if s != [] {
      PrecedesIsStrictTotal(posts, s[0], s[0], s[0]);
      assert s[0] !in s[1..];
      assert Sorted(posts, s[1..]);
      forall x
        ensures x in s[1..] <==> x in ks - {s[0]}
      {
        if x in s[1..] {
          var i :| 1 <= i < |s| && s[i] == x;
          assert s[i] in s;
        }
        if x in ks - {s[0]} {
          assert x in s;
          var i :| 0 <= i < |s| && s[i] == x;
          assert i != 0;
          assert s[1..][i - 1] == x;
        }
      }
      SortedCount(posts, s[1..], ks - {s[0]});
      assert s[0] in ks;
    }
  }

  // ---------------------------------------------------------------------
  // Pagination

  function Abs(n: int): nat { if n < 0 then -n else n }

  /** `.skip(skip).limit(limit)`: the posts from position `skip` on, at most
      `|limit|` of them; a limit of 0 means no limit. */
  function Window(s: seq<PostId>, skip: nat, limit: int): (r: seq<PostId>)
    ensures skip >= |s| ==> r == []
    ensures skip < |s| ==> |r| == (if limit == 0 || |s| - skip <= Abs(limit) then |s| - skip else Abs(limit))
    ensures forall i :: 0 <= i < |r| ==> skip + i < |s| && r[i] == s[skip + i]
  {
    var rest := if skip <= |s| then s[skip..] else [];
    if limit == 0 || |rest| <= Abs(limit) then rest else rest[..Abs(limit)]
  }

  /** `Math.ceil(total / limit)`, which is not a number when the limit is 0
      (serialised as null). */
  function PageCount(total: nat, limit: int): (r: Option<int>)
    ensures r.None? <==> limit == 0
    ensures limit > 0 ==> (r.value - 1) * limit < total <= r.value * limit
    ensures limit < 0 ==> r.value * limit <= total < (r.value - 1) * limit
  {
    if limit == 0 then None
    else if limit > 0 then
      CeilDiv(total, limit);
      Some((total + limit - 1) / limit)
    else
      FloorDiv(total, -limit);
      Some(-(total / -limit))
  }

  lemma CeilDiv(total: nat, limit: nat)
    requires limit > 0
    ensures ((total + limit - 1) / limit - 1) * limit < total <= ((total + limit - 1) / limit) * limit
  {
    var n := total + limit - 1;
    var c := n / limit;
    assert n == c * limit + n % limit;
    assert (c - 1) * limit == c * limit - limit;
  }

  lemma FloorDiv(total: nat, m: nat)
    requires m > 0
    ensures (total / m) * m <= total < (total / m + 1) * m
  {
    assert total == (total / m) * m + total % m;
    assert (total / m + 1) * m == (total / m) * m + m;
  }

  function PostsAt(posts: map<PostId, Post>, ks: seq<PostId>): (r: seq<Post>)
    requires forall i :: 0 <= i < |ks| ==> ks[i] in posts
    ensures |r| == |ks| && forall i :: 0 <= i < |ks| ==> r[i] == posts[ks[i]]
  {
    seq(|ks|, i requires 0 <= i < |ks| => posts[ks[i]])
  }

  /** Ranks the matching posts by inserting them one by one. */
  method RankPosts(posts: map<PostId, Post>, q: Query) returns (ranked: seq<PostId>)
    ensures IsRanking(posts, q, ranked)
  {
    ranked := [];
    var rest := posts.Keys;
    while rest != {}
      invariant rest <= posts.Keys
      invariant Sorted(posts, ranked)
      invariant forall k :: k in ranked <==> k in posts && k !in rest && Matches(posts[k], q)
      decreases |rest|
    {
      var k :| k in rest;
      rest := rest - {k};
      if Matches(posts[k], q) {
        ranked := Insert(posts, ranked, k);
      }
    }
  }

  /** `getPosts`: the page of matching posts in publication order, with
      the requested page and limit echoed, the number of matching posts and
      the number of pages; or the error a negative skip raises. */
  method GetPosts(posts: map<PostId, Post>, q: Query) returns (r: Result<Page, ListError>)
    ensures r.Err? <==> SkipOf(q) < 0
    ensures r.Ok? ==>
      var ranking := Ranked(posts, q);
      var page := r.value;
      && page.data == PostsAt(posts, Window(ranking, SkipOf(q), LimitOf(q)))
      && page.pagination.page == PageOf(q) && page.pagination.limit == LimitOf(q)
      && page.pagination.total == |MatchingIds(posts, q)|
      && page.pagination.pages == PageCount(|MatchingIds(posts, q)|, LimitOf(q))
    ensures r.Ok? ==> forall i :: 0 <= i < |r.value.data| ==> Matches(r.value.data[i], q)
    ensures r.Ok? && LimitOf(q) != 0 ==> |r.value.data| <= Abs(LimitOf(q))
  {
    var skip := SkipOf(q);
    if skip < 0 {
      return Err(NegativeSkip(skip));
    }
    var ranked := RankPosts(posts, q);
    SortedUnique(posts, ranked, Ranked(posts, q));
    SortedCount(posts, ranked, MatchingIds(posts, q));
    var window := Window(ranked, skip, LimitOf(q));
    assert forall i :: 0 <= i < |window| ==> window[i] in ranked;
    var total := |ranked|;
    r := Ok(Page(PostsAt(posts, window), Pagination(PageOf(q), LimitOf(q), total, PageCount(total, LimitOf(q)))));
  }

  // ---------------------------------------------------------------------
  // Properties

  /** Without a status in the query only published posts are listed. */
  lemma DefaultListsPublishedOnly(p: Post, q: Query)
    requires q.status.None?
    ensures Matches(p, q) ==> p.status == Published
  {
  }

  /** The search is case-insensitive: searching for a lower-cased term
      matches exactly the posts the original term matches. */
  lemma SearchIgnoresCase(p: Post, q: Query, term: string)
    ensures Matches(p, q.(search := Some(Lower(term)))) <==> Matches(p, q.(search := Some(term)))
  {
    LowerIdempotent(term);
  }

  /** With a positive limit, page `page` (counting from 1) holds posts
      exactly when it is not past the reported page count. */
  lemma PageFilledIffWithinPages(total: nat, page: int, limit: int)
    requires limit > 0 && page >= 1
    ensures (page - 1) * limit < total <==> page <= PageCount(total, limit).value
  {
    var c := PageCount(total, limit).value;
    if page <= c {
      MulMonotone(page - 1, c - 1, limit);
    } else {
      MulMonotone(c, page - 1, limit);
    }
  }

  lemma MulMonotone(a: int, b: int, m: nat)
    requires a <= b
    ensures a * m <= b * m
  {
    assert b * m - a * m == (b - a) * m;
  }

  /** With a positive limit, the page at `skip` and the page right after it
      together make up the window of twice the limit. */
  lemma {:induction false} ConsecutivePagesTile(s: seq<PostId>, skip: nat, limit: int)
    requires limit > 0
    ensures Window(s, skip, limit) + Window(s, skip + limit, limit) == Window(s, skip, 2 * limit)
  {
    var a := Window(s, skip, limit);
    var b := Window(s, skip + limit, limit);
    var w := Window(s, skip, 2 * limit);
    if skip + limit < |s| {
      assert |a| == limit;
      assert |a + b| == |w|;
      forall i | 0 <= i < |w| ensures (a + b)[i] == w[i] {
        if i < limit {
          assert (a + b)[i] == a[i];
        } else {
          assert (a + b)[i] == b[i - limit];
        }
      }
    } else {
      assert b == [];
      assert |a| == |w|;
      forall i | 0 <= i < |w| ensures a[i] == w[i] {
      }
    }
  }
}

=== FILE: markdown.dfy ===
/**
 * The two markdown helpers of the Obsidian sync tool: the title taken from
 * the first level-one heading, and the plain-text excerpt. Each regular
 * expression is written out as a left-to-right scan that makes the
 * engine's greedy and lazy choices explicit.
 */
module Markdown {
  import opened Wrappers
  import opened Strings

  // ---------------------------------------------------------------------
  // Scanning primitives

  /** Where `^` matches in multiline mode: at the start and after a line
      terminator. */
  predicate LineStart(s: string, i: int)
    requires 0 <= i <= |s|
  {
    i == 0 || IsLineTerminator(s[i - 1])
  }

  /** Where the line holding `i` ends: the first line terminator at or after
      `i`, or the end of the string. `.+` run greedily stops there. */
  function LineEnd(s: string, i: nat): (r: nat)
    requires i <= |s|
    ensures i <= r <= |s|
    ensures forall k :: i <= k < r ==> !IsLineTerminator(s[k])
    ensures r < |s| ==> IsLineTerminator(s[r])
    decreases |s| - i
  {
    if i == |s| || IsLineTerminator(s[i]) then i else LineEnd(s, i + 1)
  }

  /** The length of the longest run of whitespace from `i`: what a greedy
      `\s+` takes (when it is not zero). */
  function SpaceRun(s: string, i: nat): (r: nat)
    requires i <= |s|
    ensures i + r <= |s|
    ensures forall k :: i <= k < i + r ==> IsSpace(s[k])
    ensures i + r < |s| ==> !IsSpace(s[i + r])
    decreases |s| - i
  {
    if i == |s| || !IsSpace(s[i]) then 0 else 1 + SpaceRun(s, i + 1)
  }

  /** The length of the run of `c` from `i`: what a greedy `c+` takes. */
  function CharRun(s: string, i: nat, c: char): (r: nat)
    requires i <= |s|
    ensures i + r <= |s|
    ensures forall k :: i <= k < i + r ==> s[k] == c
    ensures i + r < |s| ==> s[i + r] != c
    decreases |s| - i
  {
    if i == |s| || s[i] != c then 0 else 1 + CharRun(s, i + 1, c)
  }

  /** A lazy group `(.+?)` starting at `start` and followed by `close`,
      trying group ends `j`, `j + 1`, ...: the first end with `close` right
      after it, as long as the group stays on one line. */
  function LazyEnd(s: string, start: nat, close: string, j: nat): (r: Option<nat>)
    requires start < j
    ensures r.Some? ==> j <= r.value && r.value + |close| <= |s| && StartsWith(s[r.value..], close)
    ensures r.Some? ==> forall k :: j - 1 <= k < r.value ==> !IsLineTerminator(s[k])
    decreases |s| + 1 - j
  {
    if j > |s| || IsLineTerminator(s[j - 1]) then None
    else if StartsWith(s[j..], close) then Some(j)
    else LazyEnd(s, start, close, j + 1)
  }

  // ---------------------------------------------------------------------
  // The title: `/^#\s+(.+)$/m`

  /** Where the greedy `\s+` after `#` has to give back characters: the
      largest `k` in `1..n` such that the character after `base + k`
      whitespace characters is one `.` accepts. */
  function TextStart(s: string, base: nat, n: nat): (r: Option<nat>)
    requires 1 <= n && base + n <= |s|
    ensures r.Some? ==> base < r.value < |s| && !IsLineTerminator(s[r.value])
    decreases n
  {
    if base + n < |s| && !IsLineTerminator(s[base + n]) then Some(base + n)
    else if n == 1 then None
    else TextStart(s, base, n - 1)
  }

  /** The text a heading match at `i` captures, if the pattern matches
      there: a `#` at a line start, whitespace, then the rest of a line. */
  function HeadingAt(s: string, i: nat): (r: Option<string>)
    requires i < |s|
    ensures r.Some? ==> LineStart(s, i) && s[i] == '#' && i + 1 < |s| && IsSpace(s[i + 1])
    ensures r.Some? ==> r.value != [] && forall k :: 0 <= k < |r.value| ==> !IsLineTerminator(r.value[k])
  {
    if !LineStart(s, i) || s[i] != '#' then None
    else
      var w := SpaceRun(s, i + 1);
      if w == 0 then None
      else match TextStart(s, i + 1, w)
        case None => None
        case Some(p) => Some(s[p..LineEnd(s, p)])
  }

  /** Where the first match at or after `from` starts: the engine tries
      start positions left to right and stops at the first that matches. */
  function FirstMatch(s: string, from: nat): (r: Option<nat>)
    requires from <= |s|
    ensures r.Some? ==> from <= r.value < |s| && HeadingAt(s, r.value).Some?
    ensures r.Some? ==> forall j :: from <= j < r.value ==> HeadingAt(s, j).None?
    ensures r.None? ==> forall i :: from <= i < |s| ==> HeadingAt(s, i).None?
    decreases |s| - from
  {
    if from == |s| then None
    else if HeadingAt(s, from).Some? then Some(from)
    else FirstMatch(s, from + 1)
  }

  /** The text the first match at or after `from` captures. */
  function FirstHeading(s: string, from: nat): (r: Option<string>)
    requires from <= |s|
    ensures r.Some? <==> FirstMatch(s, from).Some?
    ensures r.Some? ==> r == HeadingAt(s, FirstMatch(s, from).value)
    ensures r.Some? ==> r.value != [] && forall k :: 0 <= k < |r.value| ==> !IsLineTerminator(r.value[k])
  {
    match FirstMatch(s, from)
    case None => None
    case Some(i) => HeadingAt(s, i)
  }

  /** `extractTitleFromContent`: the trimmed text of the first level-one
      heading, or nothing when no line matches. */
  function ExtractTitle(content: string): (r: Option<string>)
    ensures r.None? <==> forall i :: 0 <= i < |content| ==> HeadingAt(content, i).None?
    ensures r.Some? ==> IsTrimmed(r.value)
    ensures r.Some? ==> exists i :: 0 <= i < |content| && HeadingAt(content, i).Some?
                                   && r.value == Trim(HeadingAt(content, i).value)
                                   && forall j :: 0 <= j < i ==> HeadingAt(content, j).None?
  {
    match FirstHeading(content, 0)
    case None => None
    case Some(t) => TrimIsTrimmed(t); Some(Trim(t))
  }

  /** The title never spans lines: trimming a one-line capture leaves no
      line terminator. */
  lemma TitleIsOneLine(content: string)
    ensures ExtractTitle(content).Some? ==>
      forall k :: 0 <= k < |ExtractTitle(content).value| ==> !IsLineTerminator(ExtractTitle(content).value[k])
  {
    var h := FirstHeading(content, 0);
    if h.Some? {
      TrimPreserves(h.value, c => !IsLineTerminator(c));
    }
  }

  /** A document opening with `# ` and a one-line title has that title. */
  lemma HeadingLineIsTitle(line: string, rest: string)
    requires line != [] && !IsSpace(line[0])
    requires forall k :: 0 <= k < |line| ==> !IsLineTerminator(line[k])
    requires rest == [] || IsLineTerminator(rest[0])
    ensures ExtractTitle("# " + line + rest) == Some(Trim(line))
  {
    var s := "# " + line + rest;
    assert s[0] == '#' && s[1] == ' ' && s[2] == line[0];
    assert SpaceRun(s, 2) == 0;
    assert SpaceRun(s, 1) == 1;
    assert TextStart(s, 1, 1) == Some(2);
    var e := LineEnd(s, 2);
    assert forall k :: 2 <= k < 2 + |line| ==> s[k] == line[k - 2] && !IsLineTerminator(s[k]);
    if rest != [] {
      assert IsLineTerminator(s[2 + |line|]);
    }
    assert e == 2 + |line|;
    assert s[2..e] == line;
    assert HeadingAt(s, 0) == Some(line);
  }

  /** Of two headings the first one gives the title. */
  lemma FirstOfTwoHeadings()
    ensures ExtractTitle("# A\n# B") == Some("A")
  {
    var s := "# A\n# B";
    assert SpaceRun(s, 2) == 0;
    assert SpaceRun(s, 1) == 1;
    assert TextStart(s, 1, 1) == Some(2);
    assert LineEnd(s, 3) == 3;
    assert LineEnd(s, 2) == 3;
    assert s[2..3] == "A";
    assert HeadingAt(s, 0) == Some("A");
    assert Trim("A") == "A";
  }

  /** A second-level heading is not a title. */
  lemma SubheadingIsNoTitle()
    ensures ExtractTitle("## Sub") == None
  {
    var s := "## Sub";
    assert HeadingAt(s, 0).None? by {
      assert SpaceRun(s, 1) == 0;
    }
    forall i | 1 <= i < |s| ensures HeadingAt(s, i).None? {
      assert !LineStart(s, i);
    }
  }

  /** The greedy `\s+` also crosses line ends: a bare `#` line takes the
      next line as its title. */
  lemma BareHashTakesNextLine()
    ensures ExtractTitle("#\nIdea") == Some("Idea")
  {
    var s := "#\nIdea";
    assert SpaceRun(s, 2) == 0;
    assert SpaceRun(s, 1) == 1;
    assert TextStart(s, 1, 1) == Some(2);
    assert LineEnd(s, 2) == 6;
    assert s[2..6] == "Idea";
    assert HeadingAt(s, 0) == Some("Idea");
    assert Trim("Idea") == "Idea";
  }

  // ---------------------------------------------------------------------
  // The excerpt: five replacements, newline runs, trim, truncation

  /** `replace(/^#+\s+/gm, '')`: heading markers at line starts go. */
  function StripHeaders(s: string, i: nat): (r: string)
    requires i <= |s|
    ensures |r| <= |s| - i
    decreases |s| - i
  {
    if i == |s| then []
    else if LineStart(s, i) && s[i] == '#' && SpaceRun(s, i + CharRun(s, i, '#')) > 0 then
      StripHeaders(s, i + CharRun(s, i, '#') + SpaceRun(s, i + CharRun(s, i, '#')))
    else [s[i]] + StripHeaders(s, i + 1)
  }

  /** The global replacement of `\*\*(.+?)\*\*` by `$1`: bold markers go,
      the text stays. */
  function StripBold(s: string, i: nat): (r: string)
    requires i <= |s|
    ensures |r| <= |s| - i
    decreases |s| - i
  {
    if i == |s| then []
    else if StartsWith(s[i..], "**") && LazyEnd(s, i + 2, "**", i + 3).Some? then
      var j := LazyEnd(s, i + 2, "**", i + 3).value;
      s[i + 2..j] + StripBold(s, j + 2)
    else [s[i]] + StripBold(s, i + 1)
  }

  /** The global replacement of `\*(.+?)\*` by `$1`: italic markers go,
      the text stays. */
  function StripItalic(s: string, i: nat): (r: string)
    requires i <= |s|
    ensures |r| <= |s| - i
    decreases |s| - i
  {
    if i == |s| then []
    else if s[i] == '*' && LazyEnd(s, i + 1, "*", i + 2).Some? then
      var j := LazyEnd(s, i + 1, "*", i + 2).value;
      s[i + 1..j] + StripItalic(s, j + 1)
    else [s[i]] + StripItalic(s, i + 1)
  }

  /** The lazy link text `\[(.+?)\]` followed by a lazy target `\(.+?\)`:
      the first text end `j` (from `j`) where `](` follows and the target
      closes on the same line. Returns the text end and the `)` position. */
  function LinkEnd(s: string, start: nat, j: nat): (r: Option<(nat, nat)>)
    requires start < j
    ensures r.Some? ==> j <= r.value.0 && r.value.0 + 2 < r.value.1 < |s|
    decreases |s| + 1 - j
  {
    if j > |s| || IsLineTerminator(s[j - 1]) then None
    else if StartsWith(s[j..], "](") && LazyEnd(s, j + 2, ")", j + 3).Some? then
      Some((j, LazyEnd(s, j + 2, ")", j + 3).value))
    else LinkEnd(s, start, j + 1)
  }

  /** `replace(/\[(.+?)\]\(.+?\)/g, '$1')`: a link becomes its text. */
  function StripLinks(s: string, i: nat): (r: string)
    requires i <= |s|
    ensures |r| <= |s| - i
    decreases |s| - i
  {
    if i == |s| then []
    else if s[i] == '[' && LinkEnd(s, i + 1, i + 2).Some? then
      var (j, e) := LinkEnd(s, i + 1, i + 2).value;
      s[i + 1..j] + StripLinks(s, e + 1)
    else [s[i]] + StripLinks(s, i + 1)
  }

  /** `replace(/^[-*]\s+/gm, '')`: list bullets at line starts go. */
  function StripBullets(s: string, i: nat): (r: string)
    requires i <= |s|
    ensures |r| <= |s| - i
    decreases |s| - i
  {
    if i == |s| then []
    else if LineStart(s, i) && (s[i] == '-' || s[i] == '*') && SpaceRun(s, i + 1) > 0 then
      StripBullets(s, i + 1 + SpaceRun(s, i + 1))
    else [s[i]] + StripBullets(s, i + 1)
  }

  /** `replace(/\n+/g, ' ')`: every run of line feeds becomes one space. */
  function JoinLines(s: string, i: nat): (r: string)
    requires i <= |s|
    ensures |r| <= |s| - i
    ensures '\n' !in r
    decreases |s| - i
  {
    if i == |s| then []
    else if s[i] == '\n' then " " + JoinLines(s, i + CharRun(s, i, '\n'))
    else [s[i]] + JoinLines(s, i + 1)
  }

  /** The text with its markdown formatting removed, on one line, trimmed. */
  function Clean(content: string): (r: string)
    ensures |r| <= |content|
    ensures '\n' !in r
    ensures IsTrimmed(r)
  {
    var a := StripHeaders(content, 0);
    var b := StripBold(a, 0);
    var c := StripItalic(b, 0);
    var d := StripLinks(c, 0);
    var e := StripBullets(d, 0);
    var f := JoinLines(e, 0);
    TrimIsTrimmed(f);
    TrimKeepsOut(f, '\n');
    Trim(f)
  }

  const DefaultExcerptLength := 200

  /** `substring(0, n)`: a negative end counts as 0, one past the end as
      the length. */
  function Prefix(s: string, n: int): (r: string)
    ensures r == s[..if n < 0 then 0 else if n > |s| then |s| else n]
  {
    if n < 0 then [] else if n > |s| then s else s[..n]
  }

  /** `generateExcerpt`: the cleaned text when it fits, otherwise its first
      `maxLength` characters, trimmed, followed by an ellipsis. */
  function GenerateExcerpt(content: string, maxLength: int): (r: string)
    ensures |Clean(content)| <= maxLength ==> r == Clean(content)
    ensures |Clean(content)| > maxLength ==> r == Trim(Prefix(Clean(content), maxLength)) + "..."
    ensures maxLength >= 0 ==> |r| <= maxLength + 3
    ensures '\n' !in r
  {
    var text := Clean(content);
    if |text| > maxLength then
      CutStaysOnOneLine(text, maxLength);
      Trim(Prefix(text, maxLength)) + "..."
    else text
  }

  /** Cutting and trimming one line of text keeps it on one line. */
  lemma CutStaysOnOneLine(text: string, n: int)
    requires '\n' !in text
    ensures '\n' !in Trim(Prefix(text, n)) + "..."
    ensures n >= 0 ==> |Trim(Prefix(text, n)) + "..."| <= n + 3
  {
    var cut := Prefix(text, n);
    forall k | 0 <= k < |cut| ensures cut[k] != '\n' {
      assert cut[k] == text[k];
    }
    TrimKeepsOut(cut, '\n');
    var t := Trim(cut);
    forall k | 0 <= k < |t + "..."| ensures (t + "...")[k] != '\n' {
      if k < |t| { assert (t + "...")[k] == t[k]; } else { assert (t + "...")[k] == '.'; }
    }
  }

  // ---------------------------------------------------------------------
  // Text without markup passes through unchanged

  lemma {:induction false} StripHeadersPlain(s: string, i: nat)
    requires i <= |s|
    requires forall k :: i <= k < |s| ==> !LineStart(s, k) || s[k] != '#'
    ensures StripHeaders(s, i) == s[i..]
    decreases |s| - i
  {
    if i < |s| {
      StripHeadersPlain(s, i + 1);
      assert s[i..] == [s[i]] + s[i + 1..];
    }
  }

  lemma {:induction false} StripBoldPlain(s: string, i: nat)
    requires i <= |s| && '*' !in s
    ensures StripBold(s, i) == s[i..]
    decreases |s| - i
  {
    if i < |s| {
      assert !StartsWith(s[i..], "**") by {
        assert s[i..][0] == s[i];
      }
      StripBoldPlain(s, i + 1);
      assert s[i..] == [s[i]] + s[i + 1..];
    }
  }

  lemma {:induction false} StripItalicPlain(s: string, i: nat)
    requires i <= |s| && '*' !in s
    ensures StripItalic(s, i) == s[i..]
    decreases |s| - i
  {
    if i < |s| {
      StripItalicPlain(s, i + 1);
      assert s[i..] == [s[i]] + s[i + 1..];
    }
  }

  lemma {:induction false} StripLinksPlain(s: string, i: nat)
    requires i <= |s| && '[' !in s
    ensures StripLinks(s, i) == s[i..]
    decreases |s| - i
  {
    if i < |s| {
      StripLinksPlain(s, i + 1);
      assert s[i..] == [s[i]] + s[i + 1..];
    }
  }

  lemma {:induction false} StripBulletsPlain(s: string, i: nat)
    requires i <= |s|
    requires forall k :: i <= k < |s| ==> !LineStart(s, k) || (s[k] != '-' && s[k] != '*')
    ensures StripBullets(s, i) == s[i..]
    decreases |s| - i
  {
    if i < |s| {
      StripBulletsPlain(s, i + 1);
      assert s[i..] == [s[i]] + s[i + 1..];
    }
  }

  lemma {:induction false} JoinLinesPlain(s: string, i: nat)
    requires i <= |s| && '\n' !in s
    ensures JoinLines(s, i) == s[i..]
    decreases |s| - i
  {
    if i < |s| {
      JoinLinesPlain(s, i + 1);
      assert s[i..] == [s[i]] + s[i + 1..];
    }
  }

  /** Trimmed one-line text without `*`, `[` and a leading `#` or `-` has
      no markup to remove. */
  predicate Plain(s: string) {
    && '*' !in s && '[' !in s
    && (forall k :: 0 <= k < |s| ==> !IsLineTerminator(s[k]))
    && (s == [] || (s[0] != '#' && s[0] != '-'))
    && IsTrimmed(s)
  }

  lemma CleanOfPlain(s: string)
    requires Plain(s)
    ensures Clean(s) == s
  {
    assert forall k :: 0 < k < |s| ==> !LineStart(s, k);
    StripHeadersPlain(s, 0);
    StripBoldPlain(s, 0);
    StripItalicPlain(s, 0);
    StripLinksPlain(s, 0);
    StripBulletsPlain(s, 0);
    JoinLinesPlain(s, 0);
    TrimOfTrimmed(s);
  }

  /** Plain text is its own excerpt when it fits. */
  lemma PlainTextIsOwnExcerpt(s: string, maxLength: int)
    requires Plain(s) && |s| <= maxLength
    ensures GenerateExcerpt(s, maxLength) == s
  {
    CleanOfPlain(s);
  }

  /** Longer plain text is cut to its first `maxLength` characters, trimmed,
      and marked with an ellipsis. */
  lemma PlainTextIsCut(s: string, maxLength: int)
    requires Plain(s) && 0 <= maxLength < |s|
    ensures GenerateExcerpt(s, maxLength) == Trim(s[..maxLength]) + "..."
  {
    CleanOfPlain(s);
  }

  // ---------------------------------------------------------------------
  // Examples of each step

  /** A heading line loses its marker and keeps its text. */
  lemma HeadingLosesMarker(t: string)
    requires t == [] || !IsSpace(t[0])
    requires forall k :: 0 <= k < |t| ==> t[k] != '#'
    ensures StripHeaders("# " + t, 0) == t
  {
    var s := "# " + t;
    MarkerSkipped(t);
    assert s[2..] == t;
    forall k | 2 <= k < |s| ensures s[k] != '#' {
      assert s[k] == t[k - 2];
    }
    StripHeadersPlain(s, 2);
  }

  lemma MarkerSkipped(t: string)
    requires t == [] || !IsSpace(t[0])
    ensures StripHeaders("# " + t, 0) == StripHeaders("# " + t, 2)
  {
    var s := "# " + t;
    assert s[0] == '#' && s[1] == ' ';
    assert CharRun(s, 1, '#') == 0;
    if t != [] { assert s[2] == t[0]; }
    assert SpaceRun(s, 2) == 0;
  }

  lemma BoldExample()
    ensures StripBold("**b** c", 0) == "b c"
  {
    var s := "**b** c";
    assert LazyEnd(s, 2, "**", 3) == Some(3);
    assert StripBold(s, 5) == " c";
  }

  lemma LinkExample()
    ensures StripLinks("[x](y)", 0) == "x"
  {
    var s := "[x](y)";
    assert LazyEnd(s, 4, ")", 5) == Some(5);
    assert LinkEnd(s, 1, 2) == Some((2, 5));
  }

  lemma JoinLinesExample()
    ensures JoinLines("a\n\nb", 0) == "a b"
  {
    var s := "a\n\nb";
    assert CharRun(s, 1, '\n') == 2;
    assert JoinLines(s, 3) == "b";
  }
}

=== FILE: paths.dfy ===
/**
 * The parts of Node's `path` module the upload and image code uses, for
 * POSIX paths with `/` separators: `parse` (directory, base name, stem,
 * extension), `extname` and `join` of a directory with a file name.
 */
module Paths {
  import opened Wrappers
  import opened Strings

  /** The index of the last occurrence of `c` in `s`. */
  function LastIndexOf(s: string, c: char): (r: Option<nat>)
    ensures r.Some? ==> r.value < |s| && s[r.value] == c
    ensures r.Some? ==> forall k :: r.value < k < |s| ==> s[k] != c
    ensures r.None? <==> c !in s
    decreases |s|
  {
    if |s| == 0 then None
    else if s[|s| - 1] == c then Some(|s| - 1)
    else LastIndexOf(s[..|s| - 1], c)
  }

  /** The last path segment (`parse(p).base`). */
  function Base(p: string): (r: string)
    ensures '/' !in r
  {
    match LastIndexOf(p, '/')
    case None => p
    case Some(i) => p[i + 1..]
  }

  /** The directory part (`parse(p).dir`): empty for a bare file name, `/`
      for a file in the root. */
  function Dir(p: string): string {
    match LastIndexOf(p, '/')
    case None => ""
    case Some(i) => if i == 0 then "/" else p[..i]
  }

  /** `extname` of a base name: from the last `.` to the end, except that a
      name without a dot, a name whose only dot leads it (`.bashrc`) and the
      name `..` have none. */
  function ExtOfBase(b: string): (r: string)
    ensures r == [] || (r[0] == '.' && EndsWith(b, r) && |r| < |b| && '.' !in r[1..])
  {
    match LastIndexOf(b, '.')
    case None => ""
    case Some(d) => if d == 0 || b == ".." then "" else b[d..]
  }

  /** `path.extname(p)`. */
  function Extname(p: string): (r: string)
    ensures '/' !in r
  {
    ExtOfBase(Base(p))
  }

  /** The base name without its extension (`parse(p).name`). */
  function Name(p: string): (r: string)
    ensures Base(p) == r + Extname(p)
    ensures '/' !in r
  {
    var b := Base(p);
    var r := b[..|b| - |ExtOfBase(b)|];
    assert forall k :: 0 <= k < |r| ==> r[k] == b[k];
    r
  }

  /** `path.join(dir, file)` for a file name without separators: a `/` is
      put between them unless `dir` is empty or already ends with one. */
  function Join(dir: string, file: string): string {
    if dir == "" then file
    else if dir[|dir| - 1] == '/' then dir + file
    else dir + "/" + file
  }

  /** Joining a name onto a directory gives a path whose last segment is
      that name. */
  lemma BaseOfJoin(dir: string, file: string)
    requires '/' !in file
    ensures Base(Join(dir, file)) == file
  {
    var p := Join(dir, file);
    if dir != "" {
      var i := |p| - |file| - 1;
      assert p[i] == '/';
      assert p[i + 1..] == file;
      forall k | i < k < |p| ensures p[k] != '/' {
        assert p[k] == file[k - i - 1];
      }
    }
  }

  /** The extension of `stem + ext` is `ext` when `ext` is a dot followed by
      no other dot and `stem` does not start with a dot. */
  lemma ExtnameOfSuffix(stem: string, ext: string)
    requires '/' !in stem && '/' !in ext
    requires |ext| >= 1 && ext[0] == '.' && '.' !in ext[1..]
    requires |stem| >= 1 && stem[0] != '.'
    ensures Extname(stem + ext) == ext
  {
    var p := stem + ext;
    forall k | 0 <= k < |p| ensures p[k] != '/' {
      if k < |stem| { assert p[k] == stem[k]; } else { assert p[k] == ext[k - |stem|]; }
    }
    assert Base(p) == p;
    var d := |stem|;
    assert p[d] == '.';
    forall k | d < k < |p| ensures p[k] != '.' {
      assert p[k] == ext[1..][k - d - 1];
    }
    assert p[d..] == ext;
    assert p[0] != '.';
  }
}

=== FILE: post.dfy ===
/**
 * The post record: its fields, the bounds and defaults the schema declares,
 * and the two pre-save hooks (slug and `updatedAt` refresh, then the
 * write-once `publishedAt`).
 */
module PostModel {
  import opened Wrappers
  import opened Strings
  import Slug

  /** A document id; ids ascend in insertion order, as ObjectIds do. */
  type PostId = nat
  /** A path of a stored file, relative to the server's working directory. */
  type Path = string
  /** Milliseconds since the epoch, as `Date.now()` returns. */
  type Time = int

  const MaxTitleLength: nat := 200
  const MaxExcerptLength: nat := 500

  datatype Status = Draft | Published

  /** The string stored for a status. */
  function StatusName(s: Status): string {
    match s
    case Draft => "draft"
    case Published => "published"
  }

  /** The `enum: ['draft', 'published']` check on an incoming string. */
  function ParseStatus(s: string): (r: Option<Status>)
    ensures r.Some? ==> StatusName(r.value) == s
    ensures r.None? <==> s != "draft" && s != "published"
  {
    if s == "draft" then Some(Draft)
    else if s == "published" then Some(Published)
    else None
  }

  /** A stored file attached to a post: the thumbnail, the video or the audio. */
  datatype MediaRef = MediaRef(filename: string, path: Path, mimetype: string, size: nat)

  datatype Post = Post(
    id: PostId,
    title: string,
    slug: string,
    content: string,
    excerpt: Option<string>,
    author: string,
    status: Status,
    thumbnail: Option<MediaRef>,
    video: Option<MediaRef>,
    audio: Option<MediaRef>,
    tags: seq<string>,
    category: Option<string>,
    views: nat,
    publishedAt: Option<Time>,
    createdAt: Time,
    updatedAt: Time)

  /** `slot?.path` read as a condition: the slot's path when it is set and
      non-empty. */
  function PathOf(slot: Option<MediaRef>): (r: Option<Path>)
    ensures r.Some? <==> slot.Some? && slot.value.path != ""
    ensures r.Some? ==> r.value == slot.value.path
  {
    if slot.Some? && slot.value.path != "" then Some(slot.value.path) else None
  }

  /** What the schema validators and setters guarantee of a stored post. */
  predicate ValidFields(p: Post) {
    && p.title != "" && |p.title| <= MaxTitleLength && IsTrimmed(p.title)
    && p.content != ""
    && (p.excerpt.Some? ==> |p.excerpt.value| <= MaxExcerptLength)
    && (p.category.Some? ==> IsTrimmed(p.category.value))
    && (forall k :: 0 <= k < |p.tags| ==> IsTrimmed(p.tags[k]))
  }

  // ---------------------------------------------------------------------
  // Save hooks

  /** The first hook recomputes the slug when the title was modified and
      always refreshes `updatedAt`; the second sets `publishedAt` to now when
      the status was modified, is `published`, and no date is set yet. */
  function RunSaveHooks(doc: Post, titleModified: bool, statusModified: bool, now: Time): (r: Post)
    ensures r.slug == (if titleModified then Slug.Slugify(doc.title) else doc.slug)
    ensures r.updatedAt == now
    ensures doc.publishedAt.Some? ==> r.publishedAt == doc.publishedAt
    ensures r.publishedAt.Some? <==> doc.publishedAt.Some? || (statusModified && doc.status == Published)
    ensures doc.publishedAt.None? && r.publishedAt.Some? ==> r.publishedAt == Some(now)
    ensures r.(slug := doc.slug, updatedAt := doc.updatedAt, publishedAt := doc.publishedAt) == doc
  {
    var named := if titleModified then doc.(slug := Slug.Slugify(doc.title)) else doc;
    var touched := named.(updatedAt := now);
    if statusModified && touched.status == Published && touched.publishedAt.None? then
      touched.(publishedAt := Some(now))
    else
      touched
  }

  /** One `doc.set(...)` followed by `doc.save()`: the fields given are set,
      and a field counts as modified only when its value changes. */
  datatype Edit = Edit(title: Option<string>, status: Option<Status>, at: Time)

  function ApplyEdit(doc: Post, e: Edit): Post {
    var title := e.title.GetOr(doc.title);
    var status := e.status.GetOr(doc.status);
    RunSaveHooks(doc.(title := title, status := status), title != doc.title, status != doc.status, e.at)
  }

  function ApplyEdits(doc: Post, edits: seq<Edit>): Post
    decreases |edits|
  {
    if |edits| == 0 then doc else ApplyEdits(ApplyEdit(doc, edits[0]), edits[1..])
  }

  /** `publishedAt` is written at most once: across any sequence of saves
      (draft to published to draft to published, say) an existing date is
      never replaced. */
  lemma {:induction false} PublishedAtNeverOverwritten(doc: Post, edits: seq<Edit>)
    requires doc.publishedAt.Some?
    ensures ApplyEdits(doc, edits).publishedAt == doc.publishedAt
    decreases |edits|
  {
    if |edits| > 0 {
      PublishedAtNeverOverwritten(ApplyEdit(doc, edits[0]), edits[1..]);
    }
  }

  /** A document without a publication date gains one exactly when some save
      moves it into `published`. */
  lemma {:induction false} PublishedAtSetByFirstPublish(doc: Post, edits: seq<Edit>)
    requires doc.publishedAt.None?
    ensures var r := ApplyEdits(doc, edits);
      r.publishedAt.Some? <==> exists k :: 0 <= k < |edits| && PublishesAt(doc, edits, k)
    decreases |edits|
  {
    if |edits| > 0 {
      var next := ApplyEdit(doc, edits[0]);
      if next.publishedAt.Some? {
        PublishedAtNeverOverwritten(next, edits[1..]);
        assert PublishesAt(doc, edits, 0);
      } else {
        PublishedAtSetByFirstPublish(next, edits[1..]);
        assert !PublishesAt(doc, edits, 0);
        forall k | 1 <= k < |edits|
          ensures PublishesAt(doc, edits, k) <==> PublishesAt(next, edits[1..], k - 1)
        {
          assert edits[..k][1..] == edits[1..][..k - 1];
        }
        var r := ApplyEdits(doc, edits);
        if r.publishedAt.Some? {
          var j :| 0 <= j < |edits| - 1 && PublishesAt(next, edits[1..], j);
          assert PublishesAt(doc, edits, j + 1);
        }
      }
    }
  }

  /** The `k`-th save changes the status to `published`. */
  predicate PublishesAt(doc: Post, edits: seq<Edit>, k: int)
    requires 0 <= k < |edits|
  {
    var before := ApplyEdits(doc, edits[..k]);
    edits[k].status == Some(Published) && before.status != Published
  }

  /** Example of the status machine: publish, unpublish and publish again
      keeps the first publication date. */
  lemma RepublishKeepsFirstDate(doc: Post, t1: Time, t2: Time, t3: Time)
    requires doc.status == Draft && doc.publishedAt.None?
    ensures ApplyEdits(doc, [Edit(None, Some(Published), t1), Edit(None, Some(Draft), t2),
                             Edit(None, Some(Published), t3)]).publishedAt == Some(t1)
  {
    var edits := [Edit(None, Some(Published), t1), Edit(None, Some(Draft), t2), Edit(None, Some(Published), t3)];
    var first := ApplyEdit(doc, edits[0]);
    assert first.publishedAt == Some(t1);
    PublishedAtNeverOverwritten(first, edits[1..]);
  }

  /** Only a modified title changes the slug; a save that leaves the title
      alone keeps it, however often the post is saved. */
  lemma {:induction false} SlugKeptWithoutTitleChange(doc: Post, edits: seq<Edit>)
    requires forall k :: 0 <= k < |edits| ==> edits[k].title.None?
    ensures ApplyEdits(doc, edits).slug == doc.slug
    ensures ApplyEdits(doc, edits).title == doc.title
    decreases |edits|
  {
    if |edits| > 0 {
      SlugKeptWithoutTitleChange(ApplyEdit(doc, edits[0]), edits[1..]);
    }
  }
}

=== FILE: slug.dfy ===
/**
 * Slug derivation from the first pre-save hook of the post schema:
 * lower-case the title, drop every character outside `[\w\s-]`, turn each
 * whitespace run into `-`, collapse runs of hyphens, then `trim`.
 */
module Slug {
  import opened Strings

  /** Characters that survive `.replace(/[^\w\s-]/g, '')`. */
  predicate Kept(c: char) {
    IsWordChar(c) || IsSpace(c) || c == '-'
  }

  /** The characters a slug is made of. */
  predicate IsSlugChar(c: char) {
    ('a' <= c <= 'z') || ('0' <= c <= '9') || c == '_' || c == '-'
  }

  /** No two adjacent hyphens. */
  predicate NoDoubleHyphen(s: string) {
    forall i :: 0 <= i < |s| - 1 ==> !(s[i] == '-' && s[i + 1] == '-')
  }

  /** The shape every derived slug has. */
  predicate IsSlug(s: string) {
    && (forall i :: 0 <= i < |s| ==> IsSlugChar(s[i]))
    && NoDoubleHyphen(s)
  }

  /** `.replace(/[^\w\s-]/g, '')`: keeps the kept characters, in order, and
      drops the others. */
  function RemoveDisallowed(s: string): (r: string)
    ensures |r| <= |s|
    decreases |s|
  {
    if |s| == 0 then ""
    else (if Kept(s[0]) then [s[0]] else []) + RemoveDisallowed(s[1..])
  }

  /** `.replace(/\s+/g, '-')`, scanning left to right; `inRun` says the
      previous character was whitespace, so its run already produced a `-`. */
  function SpacesToHyphens(s: string, inRun: bool): string
    decreases |s|
  {
    if |s| == 0 then ""
    else if IsSpace(s[0]) then (if inRun then "" else "-") + SpacesToHyphens(s[1..], true)
    else [s[0]] + SpacesToHyphens(s[1..], false)
  }

  /** `.replace(/--+/g, '-')`: every run of hyphens becomes one hyphen
      (a run of one is left as it is); `inRun` says the previous character
      was a hyphen already emitted. */
  function CollapseHyphens(s: string, inRun: bool): string
    decreases |s|
  {
    if |s| == 0 then ""
    else if s[0] == '-' then (if inRun then "" else "-") + CollapseHyphens(s[1..], true)
    else [s[0]] + CollapseHyphens(s[1..], false)
  }

  /** The whole chain of the pre-save hook. */
  function Slugify(title: string): string {
    Trim(CollapseHyphens(SpacesToHyphens(RemoveDisallowed(Lower(title)), false), false))
  }

  // ---------------------------------------------------------------------
  // Properties of each step

  /** Removal keeps only allowed characters, all taken from the input,
      and every allowed character of the input survives. */
  lemma {:induction false} RemoveDisallowedKeeps(s: string)
    ensures forall i :: 0 <= i < |RemoveDisallowed(s)| ==>
      RemoveDisallowed(s)[i] in s && Kept(RemoveDisallowed(s)[i])
    ensures forall c :: c in s && Kept(c) ==> c in RemoveDisallowed(s)
    decreases |s|
  {
    if |s| > 0 {
      RemoveDisallowedKeeps(s[1..]);
      assert forall c :: c in s ==> c == s[0] || c in s[1..];
    }
  }

  /** Removal works piece by piece, so the kept characters stay in the
      order of the input. */
  lemma {:induction false} RemoveDisallowedOfConcat(a: string, b: string)
    ensures RemoveDisallowed(a + b) == RemoveDisallowed(a) + RemoveDisallowed(b)
    decreases |a|
  {
    if |a| == 0 {
      assert a + b == b;
    } else {
      var head: string := if Kept(a[0]) then [a[0]] else [];
      assert (a + b)[0] == a[0];
      assert (a + b)[1..] == a[1..] + b;
      RemoveDisallowedOfConcat(a[1..], b);
      assert RemoveDisallowed(a + b) == head + RemoveDisallowed(a[1..] + b);
      assert RemoveDisallowed(a) == head + RemoveDisallowed(a[1..]);
    }
  }

  /** No whitespace survives, and every other character comes from the input. */
  lemma {:induction false} SpacesToHyphensRemovesSpace(s: string, inRun: bool)
    ensures forall i :: 0 <= i < |SpacesToHyphens(s, inRun)| ==>
      !IsSpace(SpacesToHyphens(s, inRun)[i])
      && (SpacesToHyphens(s, inRun)[i] in s || SpacesToHyphens(s, inRun)[i] == '-')
    decreases |s|
  {
    if |s| > 0 {
      SpacesToHyphensRemovesSpace(s[1..], IsSpace(s[0]));
    }
  }

  /** The result has no two adjacent hyphens, does not start with one when
      the scan starts inside a run, and takes its characters from the input. */
  lemma {:induction false} CollapseHyphensCollapses(s: string, inRun: bool)
    ensures NoDoubleHyphen(CollapseHyphens(s, inRun))
    ensures inRun ==> CollapseHyphens(s, inRun) == [] || CollapseHyphens(s, inRun)[0] != '-'
    ensures forall i :: 0 <= i < |CollapseHyphens(s, inRun)| ==> CollapseHyphens(s, inRun)[i] in s
    decreases |s|
  {
    if |s| > 0 {
      CollapseHyphensCollapses(s[1..], s[0] == '-');
    }
  }

  lemma NoSpaceIsTrimmed(s: string)
    requires forall i :: 0 <= i < |s| ==> !IsSpace(s[i])
    ensures Trim(s) == s
  {
    TrimOfTrimmed(s);
  }

  /** The slug holds only lower-case ASCII letters, digits, `_` and `-`,
      never two hyphens in a row, and hence no whitespace. */
  lemma SlugifyIsSlug(title: string)
    ensures IsSlug(Slugify(title))
    ensures forall i :: 0 <= i < |Slugify(title)| ==> !IsSpace(Slugify(title)[i])
  {
    var lowered := Lower(title);
    var kept := RemoveDisallowed(lowered);
    var spaced := SpacesToHyphens(kept, false);
    var collapsed := CollapseHyphens(spaced, false);
    RemoveDisallowedKeeps(lowered);
    SpacesToHyphensRemovesSpace(kept, false);
    CollapseHyphensCollapses(spaced, false);
    NoSpaceIsTrimmed(collapsed);
    assert Slugify(title) == collapsed;
    forall i | 0 <= i < |collapsed| ensures IsSlugChar(collapsed[i]) {
      var c := collapsed[i];
      assert c in spaced;
      if c != '-' {
        assert c in kept && !IsSpace(c);
        assert c in lowered;
        assert !IsUpper(c);
      }
    }
  }

  lemma LowerOfSlug(s: string)
    requires IsSlug(s)
    ensures Lower(s) == s
  {
  }

  lemma {:induction false} RemoveDisallowedOfKept(s: string)
    requires forall i :: 0 <= i < |s| ==> Kept(s[i])
    ensures RemoveDisallowed(s) == s
    decreases |s|
  {
    if |s| > 0 {
      RemoveDisallowedOfKept(s[1..]);
      assert [s[0]] + s[1..] == s;
    }
  }

  lemma {:induction false} SpacesToHyphensOfSpaceless(s: string, inRun: bool)
    requires forall i :: 0 <= i < |s| ==> !IsSpace(s[i])
    ensures SpacesToHyphens(s, inRun) == s
    decreases |s|
  {
    if |s| > 0 {
      SpacesToHyphensOfSpaceless(s[1..], false);
      assert [s[0]] + s[1..] == s;
    }
  }

  lemma {:induction false} CollapseHyphensOfCollapsed(s: string, inRun: bool)
    requires NoDoubleHyphen(s)
    requires inRun ==> s == [] || s[0] != '-'
    ensures CollapseHyphens(s, inRun) == s
    decreases |s|
  {
    if |s| > 0 {
      CollapseHyphensOfCollapsed(s[1..], s[0] == '-');
      assert [s[0]] + s[1..] == s;
    }
  }

  /** A string already in slug shape is its own slug. */
  lemma SlugifyFixesSlugs(s: string)
    requires IsSlug(s)
    ensures Slugify(s) == s
  {
    var lowered := Lower(s);
    assert lowered == s by { LowerOfSlug(s); }
    var kept := RemoveDisallowed(lowered);
    assert kept == s by {
      assert forall i :: 0 <= i < |s| ==> Kept(s[i]);
      RemoveDisallowedOfKept(s);
    }
    var noSpace := forall i :: 0 <= i < |s| ==> !IsSpace(s[i]);
    assert noSpace by {
      forall i | 0 <= i < |s| ensures !IsSpace(s[i]) {
        assert IsSlugChar(s[i]);
      }
    }
    var spaced := SpacesToHyphens(kept, false);
    assert spaced == s by { SpacesToHyphensOfSpaceless(s, false); }
    var collapsed := CollapseHyphens(spaced, false);
    assert collapsed == s by { CollapseHyphensOfCollapsed(s, false); }
    assert Trim(collapsed) == s by { NoSpaceIsTrimmed(s); }
  }

  /** Deriving a slug from a slug changes nothing. */
  lemma SlugifyIdempotent(title: string)
    ensures Slugify(Slugify(title)) == Slugify(title)
  {
    SlugifyIsSlug(title);
    SlugifyFixesSlugs(Slugify(title));
  }


  // Worked examples, each stage of the chain checked on its own.

  lemma DoubleSpaceStages()
    ensures Lower("A  b") == "a  b" && RemoveDisallowed("a  b") == "a  b"
  {
  }

  /** A run of whitespace becomes a single hyphen. */
  lemma SlugifyDoubleSpace()
    ensures Slugify("A  b") == "a-b"
  {
    DoubleSpaceStages();
    assert SpacesToHyphens("a  b", false) == "a-b";
    assert CollapseHyphens("a-b", false) == "a-b";
    NoSpaceIsTrimmed("a-b");
  }

  lemma DoubleHyphenStages()
    ensures Lower("x--Y") == "x--y" && RemoveDisallowed("x--y") == "x--y"
  {
  }

  /** A run of hyphens becomes a single hyphen. */
  lemma SlugifyDoubleHyphen()
    ensures Slugify("x--Y") == "x-y"
  {
    DoubleHyphenStages();
    assert SpacesToHyphens("x--y", false) == "x--y";
    assert CollapseHyphens("x--y", false) == "x-y";
    NoSpaceIsTrimmed("x-y");
  }

  lemma EdgeHyphenStages()
    ensures Lower("Hi !") == "hi !"
    ensures RemoveDisallowed("hi !") == "hi "
  {
  }

  /** `trim` removes whitespace only, so a hyphen produced at the edge
      survives. */
  lemma SlugifyKeepsEdgeHyphen()
    ensures Slugify("Hi !") == "hi-"
  {
    EdgeHyphenStages();
    assert SpacesToHyphens("hi ", false) == "hi-" by {
      assert SpacesToHyphens(" ", false) == "-";
      assert "hi "[1..] == "i " && "i "[1..] == " ";
    }
    assert CollapseHyphens("hi-", false) == "hi-" by {
      assert CollapseHyphens("-", false) == "-";
      assert "hi-"[1..] == "i-" && "i-"[1..] == "-";
    }
    NoSpaceIsTrimmed("hi-");
  }

  /** A title of punctuation alone yields the empty slug. */
  lemma SlugifyAllPunctuation()
    ensures Slugify("?!") == ""
  {
    assert RemoveDisallowed(Lower("?!")) == "";
  }
}

=== FILE: strings.dfy ===
/**
 * The JavaScript string primitives the modelled code relies on, over
 * strings as sequences of code points: the `\s` class and `trim`, ASCII case
 * mapping, `startsWith`, substring search, `split`/`join` and decimal
 * rendering of integers.
 */
module Strings {

  /** JavaScript's WhiteSpace and LineTerminator code points: exactly the
      characters matched by the regex class `\s` and removed by `trim`. */
  predicate IsSpace(c: char) {
    var n := c as int;
    || (9 <= n <= 13) || n == 32 || n == 0xA0 || n == 0x1680
    || (0x2000 <= n <= 0x200A) || n == 0x2028 || n == 0x2029
    || n == 0x202F || n == 0x205F || n == 0x3000 || n == 0xFEFF
  }

  /** The line terminators: what the regex `.` does not match and where
      `^`/`$` match in multiline mode. */
  predicate IsLineTerminator(c: char) {
    c == '\n' || c == '\r' || c as int == 0x2028 || c as int == 0x2029
  }

  lemma LineTerminatorIsSpace(c: char)
    ensures IsLineTerminator(c) ==> IsSpace(c)
  {
  }

  /** The regex class `\w`: ASCII letters, digits and underscore. */
  predicate IsWordChar(c: char) {
    ('a' <= c <= 'z') || ('A' <= c <= 'Z') || ('0' <= c <= '9') || c == '_'
  }

  predicate IsUpper(c: char) {
    'A' <= c <= 'Z'
  }

  /** `toLowerCase` on one character, restricted to the ASCII letters. */
  function LowerChar(c: char): (r: char)
    ensures !IsUpper(r)
    ensures IsWordChar(r) <==> IsWordChar(c)
    ensures IsSpace(r) <==> IsSpace(c)
    ensures !IsUpper(c) ==> r == c
  {
    if IsUpper(c) then (c as int + 32) as char else c
  }

  function Lower(s: string): (r: string)
    ensures |r| == |s|
    ensures forall i :: 0 <= i < |s| ==> r[i] == LowerChar(s[i])
  {
    seq(|s|, i requires 0 <= i < |s| => LowerChar(s[i]))
  }

  lemma LowerIdempotent(s: string)
    ensures Lower(Lower(s)) == Lower(s)
  {
  }

  /** `trimStart`: drops the leading whitespace and nothing else. */
  function TrimStart(s: string): (r: string)
    ensures |r| <= |s| && r == s[|s| - |r|..]
    ensures r == [] || !IsSpace(r[0])
    ensures forall i :: 0 <= i < |s| - |r| ==> IsSpace(s[i])
    decreases |s|
  {
    if |s| > 0 && IsSpace(s[0]) then TrimStart(s[1..]) else s
  }

  /** `trimEnd`: drops the trailing whitespace and nothing else. */
  function TrimEnd(s: string): (r: string)
    ensures |r| <= |s| && r == s[..|r|]
    ensures r == [] || !IsSpace(r[|r| - 1])
    ensures forall i :: |r| <= i < |s| ==> IsSpace(s[i])
    decreases |s|
  {
    if |s| > 0 && IsSpace(s[|s| - 1]) then TrimEnd(s[..|s| - 1]) else s
  }

  /** `String.prototype.trim`. */
  function Trim(s: string): (r: string)
    ensures |r| <= |s|
    ensures r == [] || (!IsSpace(r[0]) && !IsSpace(r[|r| - 1]))
  {
    TrimEnd(TrimStart(s))
  }

  /** A string with no whitespace at either end. */
  predicate IsTrimmed(s: string) {
    s == [] || (!IsSpace(s[0]) && !IsSpace(s[|s| - 1]))
  }

  lemma TrimIsTrimmed(s: string)
    ensures IsTrimmed(Trim(s))
  {
  }

  /** How much whitespace `trim` drops from the front. */
  function TrimOffset(s: string): (r: nat)
    ensures r + |Trim(s)| <= |s|
  {
    |s| - |TrimStart(s)|
  }

  /** Trimming removes only whitespace: the result is the contiguous piece
      of the input after the dropped prefix, and everything outside it is
      whitespace. */
  lemma TrimIsSlice(s: string)
    ensures var i := TrimOffset(s); var j := i + |Trim(s)|;
      && Trim(s) == s[i..j]
      && (forall k :: 0 <= k < i ==> IsSpace(s[k]))
      && (forall k :: j <= k < |s| ==> IsSpace(s[k]))
  {
    var t := TrimStart(s);
    var u := TrimEnd(t);
    assert Trim(s) == u;
    var i := |s| - |t|;
    var j := i + |u|;
    assert t == s[i..];
    assert u == t[..|u|];
    assert u == s[i..j] by {
      forall k | 0 <= k < |u| ensures u[k] == s[i + k] {
        assert u[k] == t[k];
      }
    }
    assert forall k :: j <= k < |s| ==> IsSpace(s[k]) by {
      forall k | j <= k < |s| ensures IsSpace(s[k]) {
        assert s[k] == t[k - i];
      }
    }
  }

  /** Every character of the trimmed string satisfies what every character
      of the input does. */
  lemma TrimPreserves(s: string, p: char -> bool)
    requires forall k :: 0 <= k < |s| ==> p(s[k])
    ensures forall k :: 0 <= k < |Trim(s)| ==> p(Trim(s)[k])
  {
    TrimIsSlice(s);
    var i := TrimOffset(s);
    forall k | 0 <= k < |Trim(s)| ensures p(Trim(s)[k]) {
      assert Trim(s)[k] == s[i + k];
    }
  }

  /** Trimming adds no character. */
  lemma TrimKeepsOut(s: string, c: char)
    requires c !in s
    ensures c !in Trim(s)
  {
    TrimPreserves(s, x => x != c);
  }

  lemma TrimOfTrimmed(s: string)
    requires IsTrimmed(s)
    ensures Trim(s) == s
  {
  }

  /** Trimming `ws + s` where `ws` is whitespace and `s` is already trimmed. */
  lemma TrimLeadingSpaces(ws: string, s: string)
    requires forall i :: 0 <= i < |ws| ==> IsSpace(ws[i])
    requires IsTrimmed(s)
    ensures Trim(ws + s) == s
    decreases |ws|
  {
    if |ws| == 0 {
      assert ws + s == s;
    } else {
      assert (ws + s)[1..] == ws[1..] + s;
      TrimLeadingSpaces(ws[1..], s);
    }
  }

  predicate StartsWith(s: string, prefix: string) {
    |prefix| <= |s| && s[..|prefix|] == prefix
  }

  predicate EndsWith(s: string, suffix: string) {
    |suffix| <= |s| && s[|s| - |suffix|..] == suffix
  }

  /** `hay.includes(needle)`: some window of `hay` equals `needle`. */
  predicate Contains(hay: string, needle: string) {
    exists i :: 0 <= i <= |hay| - |needle| && OccursAt(hay, needle, i)
  }

  /** `needle` occurs in `hay` starting at index `i`. */
  predicate OccursAt(hay: string, needle: string, i: int) {
    0 <= i <= |hay| - |needle| && hay[i..i + |needle|] == needle
  }

  /** A case-insensitive literal substring match, as an `i`-flagged regex
      built from a pattern without metacharacters. */
  predicate ContainsIgnoringCase(hay: string, needle: string) {
    Contains(Lower(hay), Lower(needle))
  }

  // ---------------------------------------------------------------------
  // split / join

  /** `s.split(sep)` for a one-character separator: the pieces between
      separators, always at least one (`"".split(",")` is `[""]`). */
  function Split(s: string, sep: char): (r: seq<string>)
    ensures |r| >= 1
    ensures forall k :: 0 <= k < |r| ==> sep !in r[k]
    decreases |s|
  {
    if |s| == 0 then [""]
    else if s[0] == sep then [""] + Split(s[1..], sep)
    else
      var rest := Split(s[1..], sep);
      [[s[0]] + rest[0]] + rest[1..]
  }

  /** `parts.join(sep)`. */
  function Join(parts: seq<string>, sep: string): string
    decreases |parts|
  {
    if |parts| == 0 then ""
    else if |parts| == 1 then parts[0]
    else parts[0] + sep + Join(parts[1..], sep)
  }

  /** A separator-free string is one piece. */
  lemma {:induction false} SplitNoSeparator(s: string, sep: char)
    requires sep !in s
    ensures Split(s, sep) == [s]
    decreases |s|
  {
    if |s| > 0 {
      SplitNoSeparator(s[1..], sep);
      assert [s[0]] + s[1..] == s;
    }
  }

  /** Splitting at the first separator. */
  lemma {:induction false} SplitAtSeparator(a: string, sep: char, b: string)
    requires sep !in a
    ensures Split(a + [sep] + b, sep) == [a] + Split(b, sep)
    decreases |a|
  {
    if |a| == 0 {
      assert a + [sep] + b == [sep] + b;
      assert ([sep] + b)[1..] == b;
    } else {
      var s := a + [sep] + b;
      assert s[0] == a[0];
      assert s[1..] == a[1..] + [sep] + b;
      SplitAtSeparator(a[1..], sep, b);
      assert [a[0]] + a[1..] == a;
    }
  }

  /** `split` inverts `join` when no part contains the separator. */
  lemma {:induction false} SplitJoin(parts: seq<string>, sep: char)
    requires |parts| >= 1
    requires forall k :: 0 <= k < |parts| ==> sep !in parts[k]
    ensures Split(Join(parts, [sep]), sep) == parts
    decreases |parts|
  {
    if |parts| == 1 {
      SplitNoSeparator(parts[0], sep);
    } else {
      SplitJoin(parts[1..], sep);
      SplitAtSeparator(parts[0], sep, Join(parts[1..], [sep]));
      assert [parts[0]] + parts[1..] == parts;
    }
  }

  // ---------------------------------------------------------------------
  // decimal numbers

  predicate IsDigit(c: char) {
    '0' <= c <= '9'
  }

  function DigitChar(d: nat): (c: char)
    requires d < 10
    ensures IsDigit(c)
  {
    ('0' as int + d) as char
  }

  function DigitValue(c: char): (d: nat)
    requires IsDigit(c)
    ensures d < 10 && DigitChar(d) == c
  {
    c as int - '0' as int
  }

  /** The decimal rendering of a natural number, as `String(n)`. */
  function NatToString(n: nat): (r: string)
    ensures |r| >= 1
    ensures forall i :: 0 <= i < |r| ==> IsDigit(r[i])
    ensures r[0] == '0' ==> n == 0
    decreases n
  {
    if n < 10 then [DigitChar(n)] else NatToString(n / 10) + [DigitChar(n % 10)]
  }

  /** The decimal rendering of an integer, with a leading `-` when negative. */
  function IntToString(i: int): (r: string)
    ensures |r| >= 1
    ensures i >= 0 ==> r == NatToString(i)
    ensures i < 0 ==> r[0] == '-'
  {
    if i < 0 then "-" + NatToString(-i) else NatToString(i)
  }

  /** The value of a string of decimal digits. */
  function ParseDecimal(s: string): nat
    requires forall i :: 0 <= i < |s| ==> IsDigit(s[i])
    decreases |s|
  {
    if |s| == 0 then 0
    else ParseDecimal(s[..|s| - 1]) * 10 + DigitValue(s[|s| - 1])
  }

  /** Reading back the decimal rendering gives the number. */
  lemma {:induction false} ParseNatToString(n: nat)
    ensures ParseDecimal(NatToString(n)) == n
    decreases n
  {
    if n >= 10 {
      var s := NatToString(n);
      ParseNatToString(n / 10);
      assert s[..|s| - 1] == NatToString(n / 10);
    }
  }
}

=== FILE: sync.dfy ===
/**
 * The decisions of the Obsidian sync tool: which files trigger a sync, the
 * post data built from a note's front matter and body, and whether the
 * note is created or updated through the API, with the file-to-post map
 * that remembers the choice.
 */
module ObsidianSync {
  import opened Wrappers
  import opened Strings
  import Markdown
  import Paths
  import PostModel

  /** The front matter fields the tool reads. */
  datatype Frontmatter = Frontmatter(
    title: Option<string>, excerpt: Option<string>, status: Option<string>,
    category: Option<string>, tags: Option<seq<string>>)

  /** A note as read and split into front matter and markdown body. */
  datatype Note = Note(frontmatter: Frontmatter, body: string)

  /** The JSON body sent to the API; a missing title is `None`. */
  datatype PostData = PostData(
    title: Option<string>, content: string, excerpt: string,
    status: string, category: string, tags: seq<string>)

  datatype Request = Create(data: PostData) | Update(id: string, data: PostData)

  /** The API's answer to a request: accepted (with the post's id), or
      refused with an HTTP status. */
  datatype Reply = Accepted(id: string) | Refused(status: int)

  /** From note file paths to the ids of the posts created for them. */
  type SyncMap = map<string, string>

  datatype Step = Step(syncMap: SyncMap, request: Option<Request>)

  const DefaultStatus := "draft"

  /** A string JavaScript treats as true: present and non-empty. */
  predicate Truthy(v: Option<string>) {
    v.Some? && v.value != ""
  }

  /** `loadSyncMap`: the stored map, or the empty map when the file is
      missing or does not parse. */
  function LoadSyncMap(stored: Option<SyncMap>): (r: SyncMap)
    ensures stored.None? ==> r == map[]
    ensures stored.Some? ==> r == stored.value
  {
    stored.GetOr(map[])
  }

  /** The `add` and `change` handlers sync only files whose extension is
      exactly `.md`. */
  predicate IsMarkdownFile(path: string) {
    Paths.Extname(path) == ".md"
  }

  /** The post data: each front matter field when it is truthy, otherwise
      the title of the first heading, a generated excerpt, status draft, an
      empty category and no tags. */
  function BuildPostData(fm: Frontmatter, content: string): (r: PostData)
    ensures r.content == content
    ensures r.status != ""
    ensures Truthy(fm.title) ==> r.title == fm.title
    ensures !Truthy(fm.title) ==> r.title == Markdown.ExtractTitle(content)
    ensures !Truthy(fm.title) && r.title.Some? ==> IsTrimmed(r.title.value)
    ensures Truthy(fm.excerpt) ==> r.excerpt == fm.excerpt.value
    ensures !Truthy(fm.excerpt) ==> r.excerpt == Markdown.GenerateExcerpt(content, Markdown.DefaultExcerptLength)
    ensures !Truthy(fm.excerpt) ==> |r.excerpt| <= Markdown.DefaultExcerptLength + 3 && '\n' !in r.excerpt
    ensures Truthy(fm.status) ==> r.status == fm.status.value
    ensures !Truthy(fm.status) ==> r.status == "draft"
    ensures Truthy(fm.category) ==> r.category == fm.category.value
    ensures !Truthy(fm.category) ==> r.category == ""
    ensures fm.tags.Some? ==> r.tags == fm.tags.value
    ensures fm.tags.None? ==> r.tags == []
  {
    PostData(
      title := if Truthy(fm.title) then fm.title else Markdown.ExtractTitle(content),
      content := content,
      excerpt := if Truthy(fm.excerpt) then fm.excerpt.value
                 else Markdown.GenerateExcerpt(content, Markdown.DefaultExcerptLength),
      status := if Truthy(fm.status) then fm.status.value else DefaultStatus,
      category := if Truthy(fm.category) then fm.category.value else "",
      tags := fm.tags.GetOr([]))
  }

  /** The id stored for a file, when it is a truthy one. */
  function KnownId(m: SyncMap, filePath: string): (r: Option<string>)
    ensures r.Some? <==> filePath in m && m[filePath] != ""
    ensures r.Some? ==> r.value == m[filePath]
  {
    if filePath in m && m[filePath] != "" then Some(m[filePath]) else None
  }

  /** `syncPost`: nothing happens for an unreadable note or one without a
      title; a note already in the map is updated under its stored id; a
      new note is created and, once the API accepts it, its id is recorded.
      A refused request changes nothing. */
  function SyncPost(m: SyncMap, filePath: string, note: Option<Note>, reply: Reply): (r: Step)
    ensures r.request.None? <==>
      note.None? || !Truthy(BuildPostData(note.value.frontmatter, Trim(note.value.body)).title)
    ensures r.request.Some? ==> r.request.value.data == BuildPostData(note.value.frontmatter, Trim(note.value.body))
    ensures r.request.Some? && r.request.value.Update? ==>
      KnownId(m, filePath) == Some(r.request.value.id) && r.syncMap == m
    ensures r.request.Some? && r.request.value.Create? ==>
      KnownId(m, filePath).None? &&
      r.syncMap == (if reply.Accepted? then m[filePath := reply.id] else m)
    ensures r.request.None? ==> r.syncMap == m
  {
    match note
    case None => Step(m, None)
    case Some(n) =>
      var data := BuildPostData(n.frontmatter, Trim(n.body));
      if !Truthy(data.title) then Step(m, None)
      else match KnownId(m, filePath)
        case Some(id) => Step(m, Some(Update(id, data)))
        case None =>
          match reply
          case Accepted(id) => Step(m[filePath := id], Some(Create(data)))
          case Refused(_) => Step(m, Some(Create(data)))
  }

  /** A watcher event: a markdown file is synced, anything else ignored. */
  function OnFileEvent(m: SyncMap, filePath: string, note: Option<Note>, reply: Reply): (r: Step)
    ensures !IsMarkdownFile(filePath) ==> r == Step(m, None)
    ensures IsMarkdownFile(filePath) ==> r == SyncPost(m, filePath, note, reply)
  {
    if IsMarkdownFile(filePath) then SyncPost(m, filePath, note, reply) else Step(m, None)
  }

  // ---------------------------------------------------------------------
  // Properties

  /** The map only grows: no entry is removed, and no truthy id is ever
      replaced. */
  lemma MapOnlyGrows(m: SyncMap, filePath: string, note: Option<Note>, reply: Reply)
    ensures var r := OnFileEvent(m, filePath, note, reply).syncMap;
      && m.Keys <= r.Keys
      && (forall f :: f in m && m[f] != "" ==> r[f] == m[f])
      && (forall f :: f in r && f !in m ==> f == filePath)
  {
    var step := OnFileEvent(m, filePath, note, reply);
    if step.syncMap != m {
      assert step == SyncPost(m, filePath, note, reply);
      assert step.request.Some? && step.request.value.Create?;
      assert KnownId(m, filePath).None? && reply.Accepted?;
      assert step.syncMap == m[filePath := reply.id];
    }
  }

  /** Once a note has been created under a non-empty id, syncing it again
      updates that post instead of creating another. */
  lemma SecondSyncUpdates(m: SyncMap, filePath: string, note: Note, id: string, later: Note, reply: Reply)
    requires KnownId(m, filePath).None? && id != ""
    requires Truthy(BuildPostData(note.frontmatter, Trim(note.body)).title)
    requires Truthy(BuildPostData(later.frontmatter, Trim(later.body)).title)
    ensures var first := SyncPost(m, filePath, Some(note), Accepted(id));
      var second := SyncPost(first.syncMap, filePath, Some(later), reply);
      && second.request == Some(Update(id, BuildPostData(later.frontmatter, Trim(later.body))))
      && second.syncMap == first.syncMap
  {
  }

  /** With an empty front matter the defaults apply. */
  lemma EmptyFrontmatterDefaults(content: string)
    ensures var r := BuildPostData(Frontmatter(None, None, None, None, None), content);
      && r.title == Markdown.ExtractTitle(content)
      && r.excerpt == Markdown.GenerateExcerpt(content, 200)
      && r.status == "draft" && r.category == "" && r.tags == []
  {
  }

  /** An empty string in the front matter counts as absent. */
  lemma EmptyFieldsFallBack(fm: Frontmatter, content: string)
    requires fm.title == Some("") && fm.status == Some("") && fm.category == Some("")
    ensures var r := BuildPostData(fm, content);
      r.title == Markdown.ExtractTitle(content) && r.status == "draft" && r.category == ""
  {
  }

  /** A generated excerpt always fits the post schema's excerpt bound. */
  lemma GeneratedExcerptFitsSchema(fm: Frontmatter, content: string)
    requires !Truthy(fm.excerpt)
    ensures |BuildPostData(fm, content).excerpt| <= PostModel.MaxExcerptLength
  {
  }

  /** A note file is synced. */
  lemma MarkdownFileSynced()
    ensures IsMarkdownFile("notes/a.md")
  {
    assert Paths.LastIndexOf("notes/a.md", '/') == Some(5);
    assert Paths.Base("notes/a.md") == "a.md";
    assert Paths.LastIndexOf("a.md", '.') == Some(1);
  }

  /** The comparison is case-sensitive. */
  lemma UpperCaseExtensionIgnored()
    ensures !IsMarkdownFile("a.MD")
  {
    assert Paths.LastIndexOf("a.MD", '/') == None;
    assert Paths.LastIndexOf("a.MD", '.') == Some(1);
  }

  /** A dotfile named `.md` has no extension. */
  lemma DotfileIgnored()
    ensures !IsMarkdownFile(".md")
  {
    assert Paths.LastIndexOf(".md", '/') == None;
    assert Paths.LastIndexOf(".md", '.') == Some(0);
  }

  /** A backup copy of a note is not synced. */
  lemma BackupIgnored()
    ensures !IsMarkdownFile("a.md.bak")
  {
    var p := "a.md.bak";
    assert Paths.LastIndexOf(p, '/') == None;
    assert p[4] == '.' && p[5] == 'b' && p[6] == 'a' && p[7] == 'k';
    assert Paths.LastIndexOf(p, '.') == Some(4);
  }
}

=== FILE: upload.dfy ===
/**
 * Upload acceptance: the MIME allow-list of the file filter, the folder
 * chosen by MIME prefix, the stored file name, the size limit and the error
 * responses of the upload error handler.
 */
module Upload {
  import opened Wrappers
  import opened Strings
  import Paths

  const ImageTypes: seq<string> := ["image/jpeg", "image/jpg", "image/png", "image/gif", "image/webp"]
  const VideoTypes: seq<string> := ["video/mp4", "video/mpeg", "video/quicktime", "video/webm"]
  const AudioTypes: seq<string> := ["audio/mpeg", "audio/mp3", "audio/wav", "audio/ogg", "audio/mp4"]
  const AllowedTypes: seq<string> := ImageTypes + VideoTypes + AudioTypes

  /** The megabyte limit used when `MAX_FILE_SIZE` is unset or empty. */
  const DefaultMaxFileSizeMb: nat := 50

  /** A stored upload as the multipart middleware describes it to the
      controllers. */
  datatype Upload = Upload(
    fieldname: string, originalname: string, filename: string,
    path: string, mimetype: string, size: nat)

  /** The errors the upload middleware can pass on: its own coded errors and
      any other error (the file filter's rejection among them). */
  datatype UploadError = MulterError(code: string, message: string) | OtherError(message: string)

  datatype FilterDecision = Accept | Reject(message: string)

  /** The file filter: a file is accepted exactly when its MIME type is on
      the allow-list; otherwise the error names the type. */
  function FileFilter(mimetype: string): (r: FilterDecision)
    ensures r.Accept? <==> mimetype in AllowedTypes
    ensures r.Reject? ==> r.message == "File type " + mimetype + " is not supported"
  {
    if mimetype in AllowedTypes then Accept
    else Reject("File type " + mimetype + " is not supported")
  }

  /** The allow-list has fourteen distinct types. */
  lemma AllowListSize()
    ensures |AllowedTypes| == 14
    ensures forall i, j :: 0 <= i < j < |AllowedTypes| ==> AllowedTypes[i] != AllowedTypes[j]
  {
  }

  /** The destination folder, chosen by the first matching MIME prefix. */
  function Destination(mimetype: string): (r: string)
    ensures r in {"uploads/images/", "uploads/videos/", "uploads/audio/", "uploads/"}
    ensures r == "uploads/" <==>
      !StartsWith(mimetype, "image/") && !StartsWith(mimetype, "video/") && !StartsWith(mimetype, "audio/")
    ensures r == "uploads/images/" <==> StartsWith(mimetype, "image/")
  {
    if StartsWith(mimetype, "image/") then "uploads/images/"
    else if StartsWith(mimetype, "video/") then "uploads/videos/"
    else if StartsWith(mimetype, "audio/") then "uploads/audio/"
    else "uploads/"
  }

  /** Every allow-listed type lands in its media folder, so an accepted
      file never lands in bare `uploads/`. */
  lemma AcceptedFilesLandInMediaFolders(mimetype: string)
    requires FileFilter(mimetype).Accept?
    ensures mimetype in ImageTypes ==> Destination(mimetype) == "uploads/images/"
    ensures mimetype in VideoTypes ==> Destination(mimetype) == "uploads/videos/"
    ensures mimetype in AudioTypes ==> Destination(mimetype) == "uploads/audio/"
    ensures Destination(mimetype) != "uploads/"
  {
    if mimetype in ImageTypes {
      assert StartsWith(mimetype, "image/");
    } else if mimetype in VideoTypes {
      assert mimetype[0] == 'v' && StartsWith(mimetype, "video/");
    } else {
      assert mimetype[0] == 'a' && StartsWith(mimetype, "audio/");
    }
  }

  /** The stored file name: field name, `-`, the unique suffix (the clock in
      milliseconds, `-`, a random integer in [0, 10^9]) and the extension of
      the original name. */
  function StoredFilename(fieldname: string, originalname: string, now: nat, random: nat): string
    requires random <= 1_000_000_000
  {
    fieldname + "-" + NatToString(now) + "-" + NatToString(random) + Paths.Extname(originalname)
  }

  /** A decimal rendering holds neither a dot nor a separator. */
  lemma DigitsArePlain(n: nat)
    ensures '.' !in NatToString(n) && '/' !in NatToString(n)
  {
  }

  /** The stored name starts with the field name and keeps the extension of
      the original file name, so `extname` reads back the same extension. */
  lemma StoredFilenameKeepsExtension(fieldname: string, originalname: string, now: nat, random: nat)
    requires random <= 1_000_000_000
    requires fieldname != "" && '.' !in fieldname && '/' !in fieldname
    ensures StartsWith(StoredFilename(fieldname, originalname, now, random), fieldname + "-")
    ensures Paths.Extname(StoredFilename(fieldname, originalname, now, random)) == Paths.Extname(originalname)
  {
    var ext := Paths.Extname(originalname);
    var a, b := NatToString(now), NatToString(random);
    var stem := fieldname + "-" + a + "-" + b;
    assert StoredFilename(fieldname, originalname, now, random) == stem + ext;
    assert (stem + ext)[..|fieldname| + 1] == fieldname + "-";
    DigitsArePlain(now);
    DigitsArePlain(random);
    assert '.' !in stem && '/' !in stem;
    if ext == "" {
      assert stem + ext == stem;
      assert Paths.Base(stem) == stem;
    } else {
      Paths.ExtnameOfSuffix(stem, ext);
    }
  }

  /** Where the disk storage writes the file. */
  function StoredPath(mimetype: string, filename: string): string {
    Paths.Join(Destination(mimetype), filename)
  }

  /** The byte limit: `MAX_FILE_SIZE` (megabytes, default 50) times 2^20. */
  function SizeLimit(maxFileSizeMb: Option<nat>): nat {
    maxFileSizeMb.GetOr(DefaultMaxFileSizeMb) * 1024 * 1024
  }

  lemma DefaultSizeLimit()
    ensures SizeLimit(None) == 52_428_800
  {
  }

  /** The whole acceptance of one file: the filter runs first, then the
      storage names the file, then a file over the limit is refused. */
  function AcceptUpload(fieldname: string, originalname: string, mimetype: string, size: nat,
                        now: nat, random: nat, maxFileSizeMb: Option<nat>): (r: Result<Upload, UploadError>)
    requires random <= 1_000_000_000
    ensures r.Ok? <==> mimetype in AllowedTypes && size <= SizeLimit(maxFileSizeMb)
    ensures mimetype !in AllowedTypes ==> r == Err(OtherError("File type " + mimetype + " is not supported"))
    ensures mimetype in AllowedTypes && size > SizeLimit(maxFileSizeMb) ==>
      r == Err(MulterError("LIMIT_FILE_SIZE", "File too large"))
    ensures r.Ok? ==> (r.value.mimetype == mimetype && r.value.size == size
      && r.value.fieldname == fieldname && r.value.originalname == originalname
      && r.value.path == Destination(mimetype) + r.value.filename)
  {
    match FileFilter(mimetype)
    case Reject(message) => Err(OtherError(message))
    case Accept =>
      if size > SizeLimit(maxFileSizeMb) then Err(MulterError("LIMIT_FILE_SIZE", "File too large"))
      else
        var filename := StoredFilename(fieldname, originalname, now, random);
        Ok(Upload(fieldname, originalname, filename, StoredPath(mimetype, filename), mimetype, size))
  }

  /** What the error handler does: answer 400 with a message, or pass on. */
  datatype HandlerOutcome = Respond(status: nat, message: string) | Next

  /** The upload error handler. */
  function HandleUploadError(err: Option<UploadError>, maxFileSizeMb: Option<nat>): (r: HandlerOutcome)
    ensures err.None? <==> r.Next?
    ensures err.Some? ==> r.Respond? && r.status == 400
    ensures err.Some? && err.value.MulterError? && err.value.code == "LIMIT_FILE_SIZE" ==>
      r.message == "File too large. Maximum size is " + NatToString(maxFileSizeMb.GetOr(DefaultMaxFileSizeMb)) + "MB"
    ensures err.Some? && !(err.value.MulterError? && err.value.code == "LIMIT_FILE_SIZE") ==>
      r.message == err.value.message
  {
    match err
    case None => Next
    case Some(MulterError(code, message)) =>
      if code == "LIMIT_FILE_SIZE" then
        Respond(400, "File too large. Maximum size is " + NatToString(maxFileSizeMb.GetOr(DefaultMaxFileSizeMb)) + "MB")
      else Respond(400, message)
    case Some(OtherError(message)) => Respond(400, message)
  }

  /** End to end: a refused upload reaches the client as a 400 whose message
      says why, and an accepted one passes on. */
  lemma UploadErrorsReachClient(fieldname: string, originalname: string, mimetype: string, size: nat,
                                now: nat, random: nat, maxFileSizeMb: Option<nat>)
    requires random <= 1_000_000_000
    ensures var r := AcceptUpload(fieldname, originalname, mimetype, size, now, random, maxFileSizeMb);
      var h := HandleUploadError(if r.Ok? then None else Some(r.error), maxFileSizeMb);
      && (r.Ok? <==> h.Next?)
      && (mimetype !in AllowedTypes ==> h == Respond(400, "File type " + mimetype + " is not supported"))
      && (mimetype in AllowedTypes && size > SizeLimit(maxFileSizeMb) ==>
           h == Respond(400, "File too large. Maximum size is "
                             + NatToString(maxFileSizeMb.GetOr(DefaultMaxFileSizeMb)) + "MB"))
  {
  }
}

=== FILE: wrappers.dfy ===
/** Option and Result types shared by every module of the model. */
module Wrappers {

  /** A value that may be absent (JavaScript's `undefined` / `null`). */
  datatype Option<+T> = None | Some(value: T) {

    /** The wrapped value, or `default` when absent. */
    function GetOr(default: T): T {
      match this
      case Some(v) => v
      case None => default
    }
  }

  /** The outcome of an operation that can fail with an error of type `E`. */
  datatype Result<+T, +E> = Ok(value: T) | Err(error: E)
}
